=== FILE: README.md ===
# Anonymous confessions: verified model of the moderation and gate logic

This project models in Dafny the rule-based parts of an anonymous-confession web
application, and proves properties of that model:

- **HTML entity decoder** (`decodeHtmlEntities`). Eight literal replace-all passes in a
  fixed order, with `&amp;` last. It is used to show stored content on the admin
  dashboard.
- **Admin dashboard bookkeeping.** These are the list and counter updates behind the
  dashboard's handlers:
  - archive and unarchive;
  - mark-as-read and delete, after the server answers ok;
  - the all/unread/read view filter;
  - the refetch, which replaces the active list with the server's list, decoded;
  - the per-card size map (W/H inputs and preset buttons);
  - the chain that picks which screen to render.
- **Admin verification route.** An ordered chain of fail-closed checks: identity-provider
  user, `user_role` cookie, `admin_token` cookie, token verification, role claim. Each
  check has a fixed status and message.
- **IP ban route.** Validation, a duplicate check, then an insert into the collection of
  banned addresses.
- **Public submission form.** A blank-text pre-check, then a mapping from how the request
  ended to the new text and message. Messages are styled as a success iff they contain
  "submitted".

Modules:

| module | file | contents |
|---|---|---|
| `Wrappers` | wrappers.dfy | `Option` (JavaScript `undefined`/`null`) and string truthiness |
| `Strings` | strings.dfy | `StartsWith`, `Contains` (`includes`) and lemmas about them |
| `Seqs` | seqs.dfy | `Filter` (`Array.prototype.filter`), subsequences, filter lemmas |
| `HtmlDecoder` | html_decoder.dfy | `ReplaceAll`, `Decode`, `DecodeHtmlEntities`, decoder lemmas |
| `Moderation` | moderation.dfy | `Confession`, `Stats`, `Board` and the dashboard transitions |
| `ModerationProperties` | moderation_properties.dfy | round trip, well-formedness, counter consistency |
| `CardSizes` | card_sizes.dfy | the per-card size map |
| `AdminScreen` | admin_screen.dfy | the render chain |
| `AuthVerify` | auth_verify.dfy | the `GET` verification handler |
| `BanRoute` | ban_route.dfy | the `POST` ban handler |
| `SubmitForm` | submit_form.dfy | `handleSubmit` and message styling |

Two predicates measure the dashboard transitions:

- `WellFormed`: ids are unique across the active and archived lists together.
- `Consistent`: `total` is the length of the active list, and `unread` is the number of
  unread items in it.

Archive and unarchive keep both predicates. Mark-as-read and delete keep
`WellFormed`, but they keep `Consistent` only in the cases their lemmas name. This is
because their decrements are unconditional.

Archiving and unarchiving happen on the client only; no request tells the server. A
refetch (after sign-in, or after a ban) replaces the active list with the server's
list and leaves the archive and the counters alone. So a refetch after an archive puts
the archived item back into the active list while it is still archived, and
`WellFormed` is lost (`ArchiveThenRefetch`).

Modelling choices:

- **Network responses and oracles are inputs.** The identity provider's session lookup
  and JWT verification are inputs too: `ProviderAuth` and a `string -> TokenCheck`
  function. No cryptography is modelled.
- **The ban route's collection is a `seq<string>`.** Each element is one stored document.
  This makes "no duplicates" a real invariant. `BanAddsExactlyOne` also states the effect
  on the set of addresses.
- **Storage failures in the ban route are a `StoreFault` input.** It names the step that
  throws: connecting, the lookup, or the save.
- **`parseInt` is an input.** For the size inputs it is `Option<int>`, where `None` stands
  for `NaN`.
- **Counters are unbounded `int`s.** The source decrements them unconditionally, so they
  can go below the true count, or below zero.
- **The verification route's catch block tests two error names.** `JsonWebTokenError`
  and `TokenExpiredError` give 401; any other name gives 500. A token the verifier
  rejects as not yet valid (`NotBeforeError` in the jsonwebtoken library) therefore
  gives 500 (`AuthVerify.RejectedTokenStatus`). The model keeps the test as written.
- **`handleSubmit` rejects only blank text.** It tests `!confession.trim()` and sends the
  untrimmed text as it is; there is no length bound, pattern check or encoding on the
  client.
- **The verification route's role check reads the `user_role` cookie.** Only the admin
  screen reads the provider's `publicMetadata.roles`.

## Model

| member | source | states |
|---|---|---|
| HtmlDecoder.ReplaceAll | utils/htmlDecoder.js:5-12 | a global literal replace never lengthens the text when the replacement is no longer than the pattern, leaves text without the pattern unchanged, and (for a shorter replacement) shortens the text exactly when the pattern occurs; when the replacement is non-empty and shares no character with the pattern (true of the seven passes before `&amp;`), no occurrence of the pattern is left in the result |
| HtmlDecoder.Decode | utils/htmlDecoder.js:4-12 | the eight-pass chain never lengthens its input and changes it exactly when one of the eight entity spellings occurs in it; how each occurrence is rewritten is stated by `DecodeEntityThenRest` |
| HtmlDecoder.DecodeHtmlEntities | utils/htmlDecoder.js:1-13 | an absent text gives the empty string; a present text is never lengthened and is returned unchanged exactly when it holds no entity; `DecodeEntityThenRest` states the rewriting of each occurrence |
| HtmlDecoder.NoAmpersandUnchanged | utils/htmlDecoder.js:4-12 | a string with no `&` is returned unchanged, since every pattern begins with `&` |
| HtmlDecoder.DecodeSingleAmpersand | utils/htmlDecoder.js:4-12 | on text whose only `&` is its first character, the decoder rewrites the entity at the front (if any) and keeps the rest |
| HtmlDecoder.DecodeEntityThenRest | utils/htmlDecoder.js:4-12 | for every stretch `a` without `&`, every text `t` and each of the eight spellings `e` with its character `c`, `a + e + t` decodes to `a + c` followed by the decoding of `t`, both for the pass chain and for the function on a present text: a spelling is decoded wherever it stands, and the passes go on over the rest |
| HtmlDecoder.AmpersandThenPlain | utils/htmlDecoder.js:4-12 | `&amp;` between two stretches without `&` becomes `&` and both stretches stay as they are, even when the second completes another spelling |
| HtmlDecoder.EntityDecodes | utils/htmlDecoder.js:5-12 | each of `&lt;` `&gt;` `&quot;` `&#x27;` `&#x2F;` `&#40;` `&#41;` `&amp;` alone decodes to its character |
| HtmlDecoder.SampleDecodes | utils/htmlDecoder.js:5-12 | `&amp;lt;` decodes to `&lt;`; `&LT;` and `&#x2f;` are left untouched |
| HtmlDecoder.AmpersandLastDecodesOneLevel | utils/htmlDecoder.js:5-12 | because `&amp;` is replaced last, `&amp;lt;` decodes one level only, to `&lt;` |
| HtmlDecoder.DecodeNotIdempotent | utils/htmlDecoder.js:5-12 | decoding `&amp;lt;` once gives `&lt;`, twice gives `<` |
| HtmlDecoder.CaseSensitive | utils/htmlDecoder.js:5-11 | matching is exact and case-sensitive: `&LT;` and `&#x2f;` stay as they are |
| Moderation.Find | app/admin/page.jsx:349 | `find` by id returns one exactly when some item carries the id, and then it is the first item carrying it |
| Moderation.RemoveId | app/admin/page.jsx:352 | `filter(conf => conf._id !== id)` keeps exactly the items with another id, all of them, in their original order (a subsequence whose length is the list's less the items carrying the id); the identity when no item carries the id |
| Moderation.MarkRead | app/admin/page.jsx:549-551 | the `map` keeps the length and every item, except that an item carrying the id is marked read |
| Moderation.Archive | app/admin/page.jsx:348-358 | absent id: no change; otherwise the item leaves the active list while every other item stays, in order, is appended to the archive, `total` drops by 1, `unread` drops by 1 iff the item was unread, `today` is untouched |
| Moderation.Unarchive | app/admin/page.jsx:361-371 | absent id: no change; otherwise the item is appended to the active list, leaves the archive while every other archived item stays, in order, `total` rises by 1, `unread` rises by 1 iff the item was unread |
| Moderation.MarkAsRead | app/admin/page.jsx:547-553 | items carrying the id become read and nothing else about any item changes; the archive and `total` are unchanged; `unread` drops by exactly 1 even if nothing was unread |
| Moderation.Delete | app/admin/page.jsx:571-577 | from the archive: only the archive loses the id; otherwise the active list loses the id and `total` drops by 1 even for an absent id; the surviving items keep their order and number; `unread` never changes |
| Moderation.StatusFilter | app/admin/page.jsx:635-639 | `unread` keeps exactly the unread items, `read` exactly the read ones, any other mode is the identity, and the kept items stay in order |
| Moderation.Fetched | app/admin/page.jsx:500-506 | the ok branch replaces the active list with the server's items, each with its `content` replaced by the decoder's output and every other field kept; the archive and the counters are untouched |
| Moderation.DecodeAll | app/admin/page.jsx:500-506 | each fetched item keeps every field but `content`, which becomes `decodeHtmlEntities` of it: never longer, and differs exactly when it holds an entity |
| ModerationProperties.ArchiveUnarchiveRoundTrip | app/admin/page.jsx:348-371 | archiving then unarchiving an active id restores the counters, the archive, and the active items as a multiset (the item returns at the end) |
| ModerationProperties.ArchivePreservesWellFormed | app/admin/page.jsx:348-358 | archiving keeps ids unique across both lists |
| ModerationProperties.UnarchivePreservesWellFormed | app/admin/page.jsx:361-371 | unarchiving keeps ids unique across both lists |
| ModerationProperties.MarkAsReadPreservesWellFormed | app/admin/page.jsx:547-553 | marking as read keeps ids unique across both lists |
| ModerationProperties.DeletePreservesWellFormed | app/admin/page.jsx:571-577 | deleting keeps ids unique across both lists |
| ModerationProperties.ArchivePreservesConsistent | app/admin/page.jsx:348-358 | archiving keeps `total` and `unread` equal to the active list's size and unread count |
| ModerationProperties.UnarchivePreservesConsistent | app/admin/page.jsx:361-371 | unarchiving keeps `total` and `unread` equal to the active list's size and unread count |
| ModerationProperties.MarkReadUnreadCount | app/admin/page.jsx:548-552 | the list update removes one unread item when an unread item carries the id, and none otherwise |
| ModerationProperties.MarkAsReadConsistency | app/admin/page.jsx:547-553 | the counters stay consistent iff an unread active item carries the id; an already-read or absent id leaves `unread` one too low |
| ModerationProperties.MarkAsReadTwice | app/admin/page.jsx:547-553 | marking the same id twice changes the list once but decrements `unread` twice |
| ModerationProperties.DeleteConsistency | app/admin/page.jsx:571-577 | deleting from the active list keeps the counters consistent iff the id was present and its item already read; deleting from the archive always keeps them |
| ModerationProperties.StatusFilterPartition | app/admin/page.jsx:1476-1491 | the unread and read counts add up to the list length, and the two views together hold exactly the list's items |
| ModerationProperties.FetchWellFormed | app/admin/page.jsx:500-506 | after a fetch, ids are unique across both lists iff the server's ids are unique, the archive's are, and no fetched id is archived |
| ModerationProperties.FetchConsistent | app/admin/page.jsx:500-506 | after a fetch, the counters describe the active list iff they match the server's list, since the fetch does not set them |
| ModerationProperties.ArchiveThenRefetch | app/admin/page.jsx:348-358 | archiving is client-only: refetching the unchanged server list after archiving a one-item board loses id uniqueness across the lists |
| Seqs.FilterPartition | app/admin/page.jsx:1476-1491 | two complementary filters split a list: lengths add up and multisets add up |
| Seqs.FilterIsSubsequence | app/admin/page.jsx:635-639 | filtering preserves the relative order of kept items |
| CardSizes.GetSize | app/admin/page.jsx:442-444 | a card reads its stored size, or 400x200 when none is stored |
| CardSizes.ParsedOr300 | app/admin/page.jsx:437 | the falsy-or fallback after `parseInt` yields the parsed number unless it is `NaN` or 0, in which case it yields 300 |
| CardSizes.UpdateSize | app/admin/page.jsx:430-440 | the chosen dimension becomes the parsed value or 300; the other keeps its stored value, or 300 for a fresh id; other ids are untouched |
| CardSizes.UpdateElsewhere | app/admin/page.jsx:430-444 | updates to other ids never change how an id reads; an id never updated reads 400x200 |
| CardSizes.FirstUpdateMovesOtherDimension | app/admin/page.jsx:430-444 | the first edit of an untouched card also changes the dimension not edited (400 or 200 before, 300 after) |
| CardSizes.UpdateIdempotent | app/admin/page.jsx:430-440 | repeating the same update changes nothing further |
| CardSizes.ApplyPreset | app/admin/page.jsx:704-830 | a preset button sets the card to its fixed size and leaves other cards as they read |
| CardSizes.PresetThenUpdate | app/admin/page.jsx:430-440 | after a preset, editing one dimension keeps the preset's other dimension |
| AdminScreen.Render | app/admin/page.jsx:1119-1323 | each screen is characterised by the inputs; the dashboard is shown iff authenticated, not loading, and not (provider loaded and (not signed in or no `confess` role)) |
| AdminScreen.RoleTestBySubstring | app/admin/page.jsx:1119-1121 | `roles.includes('confess')` needs the exact name in a role list but only a substring in a role string: `confessor` passes as a string and fails as a list entry; missing roles fail |
| AdminScreen.UnloadedProviderSkipped | app/admin/page.jsx:1119-1159 | before the provider loads, sign-in state and roles make no difference, and neither provider screen is shown |
| AdminScreen.ProviderDecidesFirst | app/admin/page.jsx:1119-1181 | when the provider turns the visitor away, the admin session makes no difference and the dashboard is not shown |
| AuthVerify.ErrorResponse | app/api/admin/auth/verify/route.js:50-56 | a thrown error gives 401 "Invalid or expired token" iff its name is `JsonWebTokenError` or `TokenExpiredError`, else 500 "Internal server error" |
| AuthVerify.RejectedTokenStatus | app/api/admin/auth/verify/route.js:36-56 | with the cookies in order, a token the verifier rejects gives 401 iff the error's name is one of the two listed, else 500; a not-yet-valid token (`NotBeforeError`) gives 500 |
| AuthVerify.Verify | app/api/admin/auth/verify/route.js:7-57 | each gate's failure gives its fixed status and message, in the order provider user, role cookie, token present, verification, role claim; 200 iff all pass, with the user id, the decoded username and role `admin` |
| AuthVerify.NoUserIgnoresCookies | app/api/admin/auth/verify/route.js:12-17 | without a provider user the response does not depend on the cookies or the verifier |
| AuthVerify.RoleCookieBeforeToken | app/api/admin/auth/verify/route.js:21-33 | a role cookie other than `confess` gives 403 whatever the admin token and the verifier |
| AuthVerify.FailClosed | app/api/admin/auth/verify/route.js:10-56 | whenever some gate fails, the status is 401, 403 or 500 with an error body |
| BanRoute.Ban | app/api/admin/ban/route.js:5-30 | a falsy ip gives 400 "IP address is required"; a banned ip gives 400 "IP is already banned"; storage errors give 500; success iff the ip is fresh and storage works, appending exactly that ip; every failure leaves the collection unchanged |
| BanRoute.BanAddsExactlyOne | app/api/admin/ban/route.js:22-23 | on success the set of banned addresses is the old set plus the new ip |
| BanRoute.BanKeepsNoDuplicates | app/api/admin/ban/route.js:16-23 | a collection without duplicates stays without duplicates |
| BanRoute.BanTwice | app/api/admin/ban/route.js:16-23 | banning the same ip a second time fails and leaves the collection as the first ban left it |
| SubmitForm.Trim | app/page.jsx:12 | `trim` drops leading and trailing white space: the result is a slice of the text between a blank prefix and a blank suffix, empty exactly when every character is ECMAScript white space (`IsBlank`), and otherwise starts and ends with a non-space |
| SubmitForm.SuccessIffSubmittedSomewhere | app/page.jsx:92 | `message.includes('submitted')` (`IsSuccessMessage`) holds exactly when "submitted" starts at some position of the message |
| SubmitForm.Submit | app/page.jsx:9-42 | blank text sends nothing, keeps the text and asks for a confession; other text is sent untrimmed; ok clears it with the success message; a refusal keeps it with the server's error or "Something went wrong"; an exception keeps it with the network message; `isSubmitting` ends false |
| SubmitForm.RetrySendsSameContent | app/page.jsx:12-38 | after a failed attempt, submitting again sends the same content |
| SubmitForm.SuccessClearsText | app/page.jsx:12-33 | after a successful attempt, submitting again sends nothing and asks for a confession |
| SubmitForm.FixedMessageStyles | app/page.jsx:92 | of the four fixed messages only the success message contains "submitted" |
| SubmitForm.SuccessStyleIffOk | app/page.jsx:31-38 | when the server's error text does not mention "submitted", the message is styled a success iff the answer was ok |
| SubmitForm.RefusalStyledAsSuccess | app/page.jsx:35 | a refusal whose error reads "Already submitted" is styled as a success |

## Left out

- `shareConfessionAsImage`: DOM cloning, canvas rendering, the Web Share and clipboard APIs and the popup page, all of it browser I/O.
- Every `fetch`, `confirm` and `alert`. The handlers are modelled from the point where the response is known. The confirmation dialog before a delete is assumed accepted.
- The non-ok branches of `markAsRead`, `deleteConfession` and `fetchConfessions`. A 401 there sets `isAuthenticated` to false, and other failures only log or set an error string.
- The client-side `banUser` sequence, which makes two requests and shows alerts.
- `checkAuthStatus`, `handleLogin`, `handleLogout` and `fetchStats`. They are request plumbing with no rule of their own. `checkAuthStatus` and `handleLogin` set `isAuthenticated` from the response status, `handleLogout` sets it to false whatever the response (app/admin/page.jsx:487-490), and `handleLogin` also shows the server's `error` text (or "Login failed") when it fails. Their effect enters `AdminScreen.Render` as its `isAuthenticated` input. `fetchStats` replaces the counters wholesale with the server's `{total, unread, today}` (app/admin/page.jsx:527). That overrides whatever the local updates did, so the `Consistent` lemmas describe the counters only between such refreshes.
- The redirect effect for a signed-in user without the `confess` role. It is a router navigation. The rendered screen for that case is modelled.
- The console-logging effect, and all JSX styling and layout.
- React state batching and interleaving between handlers. Each ok-branch is one atomic transition on the state the handler saw.
- Signing and verifying JWTs, the secret and its fallback value, and the provider's `getAuth`/`useUser`. These are oracle inputs.
- The confessions list route, the archive schema, the middleware and the layout. None has logic of its own; the schema only informed the `Confession` fields.
- The textarea's `maxLength` of 2000. The browser enforces it, not `handleSubmit`.
- `CardSizes.ParsedOr300` does not model `parseInt` itself: its leading-whitespace and sign handling, hex prefixes and digit-prefix parsing. The parsed result, or `NaN`, is an input.
- `Moderation.DecodeAll` assumes every fetched item has a `content` string, as the stored schema requires. A missing `content` would decode to the empty string.
- `BanRoute.Ban` takes the posted `ip` as an optional string. A non-string JSON value, such as a number, is not modelled.
- `BanRoute.Ban` treats the duplicate lookup and the insert as one atomic step. In the route they are two separate awaited calls (app/api/admin/ban/route.js:16-23). Two concurrent requests for the same ip can both pass the lookup and both insert. So `BanKeepsNoDuplicates` holds only for requests handled one after another.
- `AdminScreen.Render` admits as roles only a missing or falsy value, an array of strings, or a string. On any other truthy `roles` value, such as a number or a plain object, `includes` is not a function and the render throws; that case is not modelled.

=== FILE: admin_screen.dfy ===
/**
 Which screen the admin page renders, decided by the identity provider's state
 first and the page's own admin session second.
 */
module AdminScreen {
  import opened Wrappers
  import opened Strings

  datatype Screen = AccessDenied | ProviderSignIn | AdminLogin | Loading | Dashboard

  /**
   A truthy `publicMetadata.roles` value the page can call `includes` on: an
   array of role names, or a single string, for which `includes` is a
   substring test.
   */
  datatype Roles = RoleList(names: seq<string>) | RoleText(text: string)

  /**
   The inputs of the render chain: the identity provider's `isLoaded` and
   `isSignedIn`, the signed-in user's role list (`None` when the user, its
   metadata or its `roles` is missing), and the page's `isAuthenticated` and
   `isLoading`.
   */
  datatype PageState = PageState(
    isLoaded: bool,
    isSignedIn: bool,
    roles: Option<Roles>,
    isAuthenticated: bool,
    isLoading: bool)

  /** `(user?.publicMetadata?.roles || []).includes('confess')`. */
  predicate HasConfessRole(p: PageState) {
    match p.roles
    case None => false
    case Some(RoleList(names)) => "confess" in names
    case Some(RoleText(text)) => Contains(text, "confess")
  }

  /** The provider checks turn the visitor away. */
  predicate ProviderBlocks(p: PageState) {
    p.isLoaded && (!p.isSignedIn || !HasConfessRole(p))
  }

  /**
   The render chain: access denied for a signed-in user without the `confess`
   role, the provider's sign-in when not signed in, the admin login form
   without an admin session, the loading view while loading, else the
   dashboard. The provider checks apply only once the provider has loaded.
   */
  function Render(p: PageState): (r: Screen)
    ensures r == AccessDenied <==> p.isLoaded && p.isSignedIn && !HasConfessRole(p)
    ensures r == ProviderSignIn <==> p.isLoaded && !p.isSignedIn
    ensures r == AdminLogin <==> !ProviderBlocks(p) && !p.isAuthenticated
    ensures r == Loading <==> !ProviderBlocks(p) && p.isAuthenticated && p.isLoading
    ensures r == Dashboard <==> p.isAuthenticated && !p.isLoading && !ProviderBlocks(p)
  {
    if p.isLoaded && p.isSignedIn && !HasConfessRole(p) then AccessDenied
    else if p.isLoaded && !p.isSignedIn then ProviderSignIn
    else if !p.isAuthenticated then AdminLogin
    else if p.isLoading then Loading
    else Dashboard
  }

  /**
   Before the provider has loaded its checks are skipped: the screen depends
   on the admin session alone.
   */
  lemma UnloadedProviderSkipped(p: PageState, isSignedIn: bool, roles: Option<Roles>)
    requires !p.isLoaded
    ensures Render(p) == Render(p.(isSignedIn := isSignedIn, roles := roles))
    ensures Render(p) != AccessDenied && Render(p) != ProviderSignIn
  {
  }

  /** When the provider turns the visitor away, the admin session makes no difference. */
  lemma ProviderDecidesFirst(p: PageState, isAuthenticated: bool, isLoading: bool)
    requires ProviderBlocks(p)
    ensures Render(p) == Render(p.(isAuthenticated := isAuthenticated, isLoading := isLoading))
    ensures Render(p) != Dashboard
  {
  }

  /**
   A role list passes only with the exact name `confess`, but a role string
   passes whenever it merely contains `confess`, as `confessor` does.
   */
  lemma RoleTestBySubstring(p: PageState, a: string, b: string)
    requires p.isLoaded && p.isSignedIn && p.isAuthenticated && !p.isLoading
    requires a + b != ""
    ensures Render(p.(roles := Some(RoleText(a + "confess" + b)))) == Dashboard
    ensures Render(p.(roles := Some(RoleList([a + "confess" + b])))) == AccessDenied
    ensures Render(p.(roles := Some(RoleList(["confess"])))) == Dashboard
    ensures Render(p.(roles := None)) == AccessDenied
  {
    ContainsInfix(a, "confess", b);
    assert |a + "confess" + b| > |"confess"|;
  }
}

=== FILE: auth_verify.dfy ===
/**
 The admin verification route: an ordered chain of fail-closed checks (a
 provider session, the `user_role` cookie, the `admin_token` cookie, token
 verification, the token's role claim), each failure mapped to a fixed status
 and message. The identity provider's session lookup and token verification
 are oracles whose answers are inputs.
 */
module AuthVerify {
  import opened Wrappers

  /** What the provider's session lookup gave: a (possibly missing) user id, or an error it threw. */
  datatype ProviderAuth = Session(userId: Option<string>) | ProviderThrew(name: string)

  /** The decoded token payload. */
  datatype Claims = Claims(username: Option<string>, role: Option<string>)

  /** What token verification gave: the payload, or the `name` of the error it threw. */
  datatype TokenCheck = Verified(claims: Claims) | VerifyThrew(name: string)

  datatype Body =
    | Failure(error: string)
    | Success(clerkUserId: string, username: Option<string>, role: string)

  datatype Response = Response(status: int, body: Body)

  /** The catch block: the two token-error names give 401, anything else 500. */
  function ErrorResponse(name: string): (r: Response)
    ensures r.status == 401 <==> name == "JsonWebTokenError" || name == "TokenExpiredError"
    ensures r.status != 401 ==> r == Response(500, Failure("Internal server error"))
    ensures r.status == 401 ==> r.body == Failure("Invalid or expired token")
  {
    if name == "JsonWebTokenError" || name == "TokenExpiredError" then
      Response(401, Failure("Invalid or expired token"))
    else
      Response(500, Failure("Internal server error"))
  }

  /** Every gate passes for these inputs. */
  predicate AllGatesPass(auth: ProviderAuth, roleCookie: Option<string>, tokenCookie: Option<string>,
                         verify: string -> TokenCheck)
  {
    && auth.Session? && Truthy(auth.userId)
    && roleCookie == Some("confess")
    && Truthy(tokenCookie)
    && verify(tokenCookie.value).Verified?
    && verify(tokenCookie.value).claims.role == Some("admin")
  }

  /** The `GET` handler. */
  function Verify(auth: ProviderAuth, roleCookie: Option<string>, tokenCookie: Option<string>,
                  verify: string -> TokenCheck): (r: Response)
    ensures auth.ProviderThrew? ==> r == ErrorResponse(auth.name)
    ensures auth.Session? && !Truthy(auth.userId) ==>
      r == Response(401, Failure("Not signed in via Clerk"))
    ensures auth.Session? && Truthy(auth.userId) && roleCookie != Some("confess") ==>
      r == Response(403, Failure("Unauthorized: role missing"))
    ensures auth.Session? && Truthy(auth.userId) && roleCookie == Some("confess") && !Truthy(tokenCookie) ==>
      r == Response(401, Failure("No token provided"))
    ensures auth.Session? && Truthy(auth.userId) && roleCookie == Some("confess") && Truthy(tokenCookie)
            && verify(tokenCookie.value).VerifyThrew? ==>
      r == ErrorResponse(verify(tokenCookie.value).name)
    ensures auth.Session? && Truthy(auth.userId) && roleCookie == Some("confess") && Truthy(tokenCookie)
            && verify(tokenCookie.value).Verified? && verify(tokenCookie.value).claims.role != Some("admin") ==>
      r == Response(403, Failure("Invalid role"))
    ensures r.status == 200 <==> AllGatesPass(auth, roleCookie, tokenCookie, verify)
    ensures r.status == 200 ==>
      r.body == Success(auth.userId.value, verify(tokenCookie.value).claims.username, "admin")
  {
    match auth
    case ProviderThrew(name) => ErrorResponse(name)
    case Session(userId) =>
      if !Truthy(userId) then Response(401, Failure("Not signed in via Clerk"))
      else if roleCookie != Some("confess") then Response(403, Failure("Unauthorized: role missing"))
      else if !Truthy(tokenCookie) then Response(401, Failure("No token provided"))
      else
        match verify(tokenCookie.value)
        case VerifyThrew(name) => ErrorResponse(name)
        case Verified(claims) =>
          if claims.role != Some("admin") then Response(403, Failure("Invalid role"))
          else Response(200, Success(userId.value, claims.username, claims.role.value))
  }

  /** Without a provider user the cookies and the verifier are never consulted. */
  lemma NoUserIgnoresCookies(userId: Option<string>,
                             role1: Option<string>, token1: Option<string>, verify1: string -> TokenCheck,
                             role2: Option<string>, token2: Option<string>, verify2: string -> TokenCheck)
    requires !Truthy(userId)
    ensures Verify(Session(userId), role1, token1, verify1) == Verify(Session(userId), role2, token2, verify2)
  {
  }

  /** A wrong or missing role cookie is decided before the admin token is looked at. */
  lemma RoleCookieBeforeToken(userId: Option<string>, role: Option<string>,
                              token1: Option<string>, verify1: string -> TokenCheck,
                              token2: Option<string>, verify2: string -> TokenCheck)
    requires Truthy(userId) && role != Some("confess")
    ensures Verify(Session(userId), role, token1, verify1) == Verify(Session(userId), role, token2, verify2)
    ensures Verify(Session(userId), role, token1, verify1).status == 403
  {
  }

  /** Every failure is one of 401, 403 and 500, with an error body. */
  lemma FailClosed(auth: ProviderAuth, roleCookie: Option<string>, tokenCookie: Option<string>,
                   verify: string -> TokenCheck)
    requires !AllGatesPass(auth, roleCookie, tokenCookie, verify)
    ensures Verify(auth, roleCookie, tokenCookie, verify).status in {401, 403, 500}
    ensures Verify(auth, roleCookie, tokenCookie, verify).body.Failure?
  {
  }

  /**
   Once the cookies are in order, a token the verifier rejects gives 401 only
   for the two error names the catch block lists; any other name, such as the
   not-yet-valid `NotBeforeError`, gives 500.
   */
  lemma RejectedTokenStatus(userId: Option<string>, token: Option<string>, verify: string -> TokenCheck)
    requires Truthy(userId) && Truthy(token) && verify(token.value).VerifyThrew?
    ensures var r := Verify(Session(userId), Some("confess"), token, verify);
      && (r.status == 401 <==> verify(token.value).name in {"JsonWebTokenError", "TokenExpiredError"})
      && (r.status != 401 ==> r == Response(500, Failure("Internal server error")))
    ensures verify(token.value).name == "NotBeforeError" ==>
      Verify(Session(userId), Some("confess"), token, verify) == Response(500, Failure("Internal server error"))
  {
  }
}

=== FILE: ban_route.dfy ===
/**
 The ban route: validate the posted `ip`, refuse one already banned, otherwise
 record it. The banned-IP collection is a sequence of addresses (one per
 stored document); storage failures are an input saying which step threw.
 */
module BanRoute {
  import opened Wrappers

  /**
   The request body: unreadable, or parsed with a (possibly missing) `ip`
   field. Unreadable covers a body that is not JSON and a body that is JSON
   `null`, from which destructuring `ip` throws.
   */
  datatype Request = Unreadable | Json(ip: Option<string>)

  /** Which storage step throws, if any: connecting, the duplicate lookup, or the save. */
  datatype StoreFault = NoFault | ConnectFails | LookupFails | SaveFails

  datatype Body = Banned | Failure(error: string)

  datatype Response = Response(status: int, body: Body)

  predicate NoDuplicates(s: seq<string>) {
    forall i, j :: 0 <= i < j < |s| ==> s[i] != s[j]
  }

  /**
   The `POST` handler, returning the response and the collection afterwards.
   A falsy `ip` is refused before storage is touched; a known `ip` is refused
   after the lookup; only a fresh `ip` with working storage is appended.
   */
  function Ban(banned: seq<string>, req: Request, fault: StoreFault): (r: (Response, seq<string>))
    ensures req.Unreadable? ==> r.0 == Response(500, Failure("Internal server error"))
    ensures req.Json? && !Truthy(req.ip) ==> r.0 == Response(400, Failure("IP address is required"))
    ensures req.Json? && Truthy(req.ip) && (fault == ConnectFails || fault == LookupFails) ==>
      r.0 == Response(500, Failure("Internal server error"))
    ensures req.Json? && Truthy(req.ip) && fault != ConnectFails && fault != LookupFails && req.ip.value in banned ==>
      r.0 == Response(400, Failure("IP is already banned"))
    ensures r.0.status == 200 <==> req.Json? && Truthy(req.ip) && req.ip.value !in banned && fault == NoFault
    ensures r.0.status == 200 ==> r.0.body == Banned && r.1 == banned + [req.ip.value]
    ensures r.0.status != 200 ==> r.1 == banned && r.0.body.Failure?
  {
    match req
    case Unreadable => (Response(500, Failure("Internal server error")), banned)
    case Json(ip) =>
      if !Truthy(ip) then (Response(400, Failure("IP address is required")), banned)
      else if fault == ConnectFails || fault == LookupFails then
        (Response(500, Failure("Internal server error")), banned)
      else if ip.value in banned then (Response(400, Failure("IP is already banned")), banned)
      else if !fault.NoFault? then (Response(500, Failure("Internal server error")), banned)
      else (Response(200, Banned), banned + [ip.value])
  }

  /** On success the set of banned addresses grows by exactly the new one. */
  lemma BanAddsExactlyOne(banned: seq<string>, req: Request, fault: StoreFault)
    requires Ban(banned, req, fault).0.status == 200
    ensures (set x | x in Ban(banned, req, fault).1) == (set x | x in banned) + {req.ip.value}
    ensures req.ip.value !in banned
  {
  }

  /** Banning never introduces a duplicate address. */
  lemma BanKeepsNoDuplicates(banned: seq<string>, req: Request, fault: StoreFault)
    requires NoDuplicates(banned)
    ensures NoDuplicates(Ban(banned, req, fault).1)
  {
  }

  /** Banning the same address twice fails the second time and leaves the collection as the first left it. */
  lemma BanTwice(banned: seq<string>, ip: string, fault: StoreFault)
    requires ip != "" && ip !in banned
    ensures var once := Ban(banned, Json(Some(ip)), NoFault).1;
      && once == banned + [ip]
      && Ban(once, Json(Some(ip)), fault).1 == once
      && Ban(once, Json(Some(ip)), fault).0.status != 200
  {
  }
}

=== FILE: card_sizes.dfy ===
/**
 The per-card size map behind the dashboard's W/H inputs: an id never touched
 reads as 400x200, an update fills a fresh entry from 300x300, and an input
 that parses to 0 or to nothing falls back to 300.
 */
module CardSizes {
  import opened Wrappers

  datatype Size = Size(width: int, height: int)

  /** Which input of the card changed (`'width'` or `'height'`). */
  datatype Dimension = Width | Height

  type Sizes = map<string, Size>

  /** `getConfessionSize(id)`: the stored size of the card, or 400x200 when none is stored. */
  function GetSize(sizes: Sizes, id: string): (r: Size)
    ensures id in sizes ==> r == sizes[id]
    ensures id !in sizes ==> r.width == 400 && r.height == 200
  {
    if id in sizes then sizes[id] else Size(400, 200)
  }

  function Dim(s: Size, d: Dimension): int {
    match d
    case Width => s.width
    case Height => s.height
  }

  function Other(d: Dimension): Dimension {
    match d
    case Width => Height
    case Height => Width
  }

  /**
   `parseInt(value) || 300`, with `parseInt` taken as given: `None` stands for
   `NaN`. Both `NaN` and `0` are falsy, so both fall back to 300.
   */
  function ParsedOr300(parsed: Option<int>): (r: int)
    ensures parsed == Some(r) || r == 300
    ensures r == 300 <==> parsed.None? || parsed.value == 0 || parsed.value == 300
  {
    match parsed
    case Some(n) => if n != 0 then n else 300
    case None => 300
  }

  /**
   `updateConfessionSize(id, dimension, value)`: the chosen dimension of `id`
   becomes the parsed value (or 300); the other keeps its stored value, or 300
   for an id without an entry; other ids are untouched.
   */
  function UpdateSize(sizes: Sizes, id: string, d: Dimension, parsed: Option<int>): (r: Sizes)
    ensures r.Keys == sizes.Keys + {id}
    ensures forall k :: k in sizes && k != id ==> r[k] == sizes[k]
    ensures Dim(GetSize(r, id), d) == ParsedOr300(parsed)
    ensures Dim(GetSize(r, id), Other(d)) == (if id in sizes then Dim(sizes[id], Other(d)) else 300)
  {
    var base := if id in sizes then sizes[id] else Size(300, 300);
    var v := ParsedOr300(parsed);
    sizes[id := match d case Width => base.(width := v) case Height => base.(height := v)]
  }

  /** The card's preset buttons, in the order they appear. */
  datatype Preset = Reset | Small | Large | Mid | Proper3 | Proper2 | Proper | LongText

  function PresetSize(p: Preset): Size {
    match p
    case Reset => Size(350, 250)
    case Small => Size(300, 150)
    case Large => Size(600, 300)
    case Mid => Size(400, 200)
    case Proper3 => Size(500, 300)
    case Proper2 => Size(400, 250)
    case Proper => Size(500, 300)
    case LongText => Size(600, 800)
  }

  /** A preset button replaces the card's whole entry; other cards are untouched. */
  function ApplyPreset(sizes: Sizes, id: string, p: Preset): (r: Sizes)
    ensures r.Keys == sizes.Keys + {id}
    ensures GetSize(r, id) == PresetSize(p)
    ensures forall k :: k != id ==> GetSize(r, k) == GetSize(sizes, k)
  {
    sizes[id := PresetSize(p)]
  }

  /** After a preset, editing one dimension keeps the preset's value of the other. */
  lemma PresetThenUpdate(sizes: Sizes, id: string, p: Preset, d: Dimension, parsed: Option<int>)
    ensures Dim(GetSize(UpdateSize(ApplyPreset(sizes, id, p), id, d, parsed), id), Other(d)) == Dim(PresetSize(p), Other(d))
  {
  }

  /** Updates to other ids never change how `id` reads; an untouched id reads 400x200. */
  lemma UpdateElsewhere(sizes: Sizes, id: string, k: string, d: Dimension, parsed: Option<int>)
    requires k != id
    ensures GetSize(UpdateSize(sizes, k, d, parsed), id) == GetSize(sizes, id)
    ensures id !in sizes ==> GetSize(UpdateSize(sizes, k, d, parsed), id) == Size(400, 200)
  {
  }

  /**
   The first update of an untouched card also moves the dimension the user did
   not edit: it read 400 (width) or 200 (height) before and reads 300 after.
   */
  lemma FirstUpdateMovesOtherDimension(sizes: Sizes, id: string, d: Dimension, parsed: Option<int>)
    requires id !in sizes
    ensures Dim(GetSize(sizes, id), Other(d)) != Dim(GetSize(UpdateSize(sizes, id, d, parsed), id), Other(d))
  {
  }

  /** Repeating an update changes nothing further. */
  lemma UpdateIdempotent(sizes: Sizes, id: string, d: Dimension, parsed: Option<int>)
    ensures UpdateSize(UpdateSize(sizes, id, d, parsed), id, d, parsed) == UpdateSize(sizes, id, d, parsed)
  {
  }
}

=== FILE: html_decoder.dfy ===
/**
 The display-side HTML entity decoder: eight literal replace-all passes in a
 fixed order, `&amp;` last.
 */
module HtmlDecoder {
  import opened Wrappers
  import opened Strings

  /**
   Every occurrence of `pat` in `s` replaced by `rep`, scanning left to right and
   resuming after each match (what `s.replace(/pat/g, rep)` does for a pattern
   without regular-expression metacharacters).
   */
  function ReplaceAll(s: string, pat: string, rep: string): (r: string)
    requires |pat| > 0
    ensures |rep| <= |pat| ==> |r| <= |s|
    ensures !Contains(s, pat) ==> r == s
    ensures |rep| < |pat| ==> (|r| < |s| <==> Contains(s, pat))
    ensures |rep| > 0 && SharesNoChar(rep, pat) ==> !Contains(r, pat)
    decreases |s|, 1
  {
    if |s| < |pat| then s
    else if s[..|pat|] == pat then
      var rest := ReplaceAll(s[|pat|..], pat, rep);
      NotStartingInPrefix(rep, rest, pat);
      rep + rest
    else
      var rest := ReplaceAll(s[1..], pat, rep);
      MissKeepsAbsent(s, pat, rep);
      [s[0]] + rest
  }

  /**
   When `s` does not start with `pat`, keeping its first character in front of
   a pattern-free rest cannot create an occurrence: one at the front would need
   the rest to start like `s[1..]`, or a character of `rep` inside `pat`.
   */
  lemma MissKeepsAbsent(s: string, pat: string, rep: string)
    requires |pat| > 0 && |s| >= |pat| && s[..|pat|] != pat
    ensures |rep| > 0 && SharesNoChar(rep, pat) && !Contains(ReplaceAll(s[1..], pat, rep), pat) ==>
      !Contains([s[0]] + ReplaceAll(s[1..], pat, rep), pat)
    decreases |s|, 0
  {
    var rest := ReplaceAll(s[1..], pat, rep);
    var x := [s[0]] + rest;
    if |rep| > 0 && SharesNoChar(rep, pat) && !Contains(rest, pat) && Contains(x, pat) {
      assert rep[0] in rep;
      assert forall i :: 0 <= i < |pat| ==> pat[i] != rep[0];
      assert x[1..] == rest;
      assert x[..|pat|] == pat;
      PrefixUntouched(s[1..], pat, rep, |pat| - 1);
    }
  }

  /** No character of `a` occurs in `b`. */
  predicate SharesNoChar(a: string, b: string) {
    forall c :: c in a ==> c !in b
  }

  /**
   A pattern cannot start inside a prefix that lacks its first character, so
   any occurrence in `a + b` lies in `b`.
   */
  lemma {:induction false} NotStartingInPrefix(a: string, b: string, pat: string)
    requires |pat| > 0
    ensures pat[0] !in a && !Contains(b, pat) ==> !Contains(a + b, pat)
    decreases |a|
  {
    if |a| == 0 {
      assert a + b == b;
    } else if pat[0] !in a && !Contains(b, pat) {
      assert (a + b)[1..] == a[1..] + b;
      NotStartingInPrefix(a[1..], b, pat);
    }
  }

  /**
   The output of a pass agrees with its input on the first `k` characters,
   unless the first character of `rep` was written somewhere among them.
   */
  lemma {:induction false} PrefixUntouched(s: string, pat: string, rep: string, k: nat)
    requires |pat| > 0 && k <= |s|
    ensures |rep| > 0 && k <= |ReplaceAll(s, pat, rep)| ==>
      ReplaceAll(s, pat, rep)[..k] == s[..k] || rep[0] in ReplaceAll(s, pat, rep)[..k]
    decreases |s|, 2
  {
    if k > 0 && |s| >= |pat| {
      var r := ReplaceAll(s, pat, rep);
      if s[..|pat|] == pat {
        if |rep| > 0 && k <= |r| {
          assert r[0] == rep[0];
        }
      } else {
        PrefixUntouched(s[1..], pat, rep, k - 1);
        var rest := ReplaceAll(s[1..], pat, rep);
        assert r == [s[0]] + rest;
        if |rep| > 0 && k <= |r| {
          assert r[..k] == [s[0]] + rest[..k - 1];
          assert s[..k] == [s[0]] + s[1..][..k - 1];
        }
      }
    }
  }

  /** One of the eight entity spellings the decoder recognises occurs in `s`. */
  predicate ContainsEntity(s: string) {
    || Contains(s, "&lt;")
    || Contains(s, "&gt;")
    || Contains(s, "&quot;")
    || Contains(s, "&#x27;")
    || Contains(s, "&#x2F;")
    || Contains(s, "&#40;")
    || Contains(s, "&#41;")
    || Contains(s, "&amp;")
  }

  /**
   The decoder on a present string. It never lengthens its input, and it changes
   the input exactly when one of the eight entity spellings occurs in it.
   */
  function Decode(s: string): (r: string)
    ensures |r| <= |s|
    ensures r == s <==> !ContainsEntity(s)
  {
    var s1 := ReplaceAll(s, "&lt;", "<");
    var s2 := ReplaceAll(s1, "&gt;", ">");
    var s3 := ReplaceAll(s2, "&quot;", "\"");
    var s4 := ReplaceAll(s3, "&#x27;", "'");
    var s5 := ReplaceAll(s4, "&#x2F;", "/");
    var s6 := ReplaceAll(s5, "&#40;", "(");
    var s7 := ReplaceAll(s6, "&#41;", ")");
    ReplaceAll(s7, "&amp;", "&")
  }

  /** `decodeHtmlEntities(text)`: a falsy text (absent or empty) yields the empty string. */
  function DecodeHtmlEntities(text: Option<string>): (r: string)
    ensures text.None? ==> r == ""
    ensures text.Some? ==> |r| <= |text.value|
    ensures text.Some? ==> (r == text.value <==> !ContainsEntity(text.value))
  {
    if !Truthy(text) then "" else Decode(text.value)
  }

  /** Every entity spelling begins with `&`, so text without `&` contains none. */
  lemma NoAmpersandNoEntity(s: string)
    requires '&' !in s
    ensures !ContainsEntity(s)
  {
    if Contains(s, "&lt;") { ContainsFirstChar(s, "&lt;"); }
    if Contains(s, "&gt;") { ContainsFirstChar(s, "&gt;"); }
    if Contains(s, "&quot;") { ContainsFirstChar(s, "&quot;"); }
    if Contains(s, "&#x27;") { ContainsFirstChar(s, "&#x27;"); }
    if Contains(s, "&#x2F;") { ContainsFirstChar(s, "&#x2F;"); }
    if Contains(s, "&#40;") { ContainsFirstChar(s, "&#40;"); }
    if Contains(s, "&#41;") { ContainsFirstChar(s, "&#41;"); }
    if Contains(s, "&amp;") { ContainsFirstChar(s, "&amp;"); }
  }

  /** A string containing no `&` is returned unchanged. */
  lemma NoAmpersandUnchanged(s: string)
    requires '&' !in s
    ensures DecodeHtmlEntities(Some(s)) == s
  {
    NoAmpersandNoEntity(s);
  }

  /**
   When `s` has exactly one `&`, at its front, a pattern beginning with `&`
   occurs in `s` only as a prefix.
   */
  lemma SingleAmpersand(s: string, pat: string)
    requires |s| > 0 && s[0] == '&' && '&' !in s[1..]
    requires |pat| > 0 && pat[0] == '&'
    ensures Contains(s, pat) <==> StartsWith(s, pat)
  {
    if Contains(s[1..], pat) {
      ContainsFirstChar(s[1..], pat);
    }
  }

  /** A pass whose pattern begins with `&` leaves text without `&` alone. */
  lemma NoAmpersandStep(s: string, pat: string, rep: string)
    requires '&' !in s
    requires |pat| > 0 && pat[0] == '&'
    ensures ReplaceAll(s, pat, rep) == s
  {
    if Contains(s, pat) {
      ContainsFirstChar(s, pat);
    }
  }

  /** A pass over text whose only `&` is its first character rewrites at most that prefix. */
  lemma SingleAmpersandStep(s: string, pat: string, rep: string)
    requires |s| > 0 && s[0] == '&' && '&' !in s[1..]
    requires |pat| > 0 && pat[0] == '&'
    ensures ReplaceAll(s, pat, rep) == if StartsWith(s, pat) then rep + s[|pat|..] else s
  {
    SingleAmpersand(s, pat);
    if StartsWith(s, pat) {
      assert s[|pat|..] == s[1..][|pat| - 1..];
      NoAmpersandStep(s[|pat|..], pat, rep);
    }
  }

  /**
   On text whose only `&` is its first character, the decoder rewrites the entity
   at the front, if any, and keeps the rest.
   */
  lemma DecodeSingleAmpersand(s: string)
    requires |s| > 0 && s[0] == '&' && '&' !in s[1..]
    ensures Decode(s) ==
      if StartsWith(s, "&lt;") then "<" + s[4..]
      else if StartsWith(s, "&gt;") then ">" + s[4..]
      else if StartsWith(s, "&quot;") then "\"" + s[6..]
      else if StartsWith(s, "&#x27;") then "'" + s[6..]
      else if StartsWith(s, "&#x2F;") then "/" + s[6..]
      else if StartsWith(s, "&#40;") then "(" + s[5..]
      else if StartsWith(s, "&#41;") then ")" + s[5..]
      else if StartsWith(s, "&amp;") then "&" + s[5..]
      else s
  {
    SingleAmpersandStep(s, "&lt;", "<");
    SingleAmpersandStep(s, "&gt;", ">");
    SingleAmpersandStep(s, "&quot;", "\"");
    SingleAmpersandStep(s, "&#x27;", "'");
    SingleAmpersandStep(s, "&#x2F;", "/");
    SingleAmpersandStep(s, "&#40;", "(");
    SingleAmpersandStep(s, "&#41;", ")");
    SingleAmpersandStep(s, "&amp;", "&");
    var t := ReplaceAll(s, "&lt;", "<");
    if StartsWith(s, "&lt;") {
      FrontRewrittenIsFixed(s, 4, "<");
    } else if StartsWith(s, "&gt;") {
      FrontRewrittenIsFixed(s, 4, ">");
    } else if StartsWith(s, "&quot;") {
      FrontRewrittenIsFixed(s, 6, "\"");
    } else if StartsWith(s, "&#x27;") {
      FrontRewrittenIsFixed(s, 6, "'");
    } else if StartsWith(s, "&#x2F;") {
      FrontRewrittenIsFixed(s, 6, "/");
    } else if StartsWith(s, "&#40;") {
      FrontRewrittenIsFixed(s, 5, "(");
    } else if StartsWith(s, "&#41;") {
      FrontRewrittenIsFixed(s, 5, ")");
    }
  }

  /** Replacing the front of single-`&` text by a character other than `&` leaves nothing to decode. */
  lemma FrontRewrittenIsFixed(s: string, n: nat, c: string)
    requires 0 < n <= |s| && '&' !in s[1..]
    requires c != "&" && |c| == 1
    ensures '&' !in c + s[n..]
    ensures !ContainsEntity(c + s[n..])
  {
    assert s[n..] == s[1..][n - 1..];
    NoAmpersandNoEntity(c + s[n..]);
  }

  /** A single differing position rules out a prefix match. */
  lemma Differs(s: string, pat: string, i: nat)
    requires i < |pat| && i < |s| && s[i] != pat[i]
    ensures !StartsWith(s, pat)
  {
  }

  /** Each of the eight entities, on its own, decodes to its character. */
  lemma EntityDecodes(s: string, r: string)
    requires
         (s == "&lt;" && r == "<")
      || (s == "&gt;" && r == ">")
      || (s == "&quot;" && r == "\"")
      || (s == "&#x27;" && r == "'")
      || (s == "&#x2F;" && r == "/")
      || (s == "&#40;" && r == "(")
      || (s == "&#41;" && r == ")")
      || (s == "&amp;" && r == "&")
    ensures DecodeHtmlEntities(Some(s)) == r
  {
    if s == "&lt;" || s == "&gt;" || s == "&quot;" || s == "&#x27;" {
      FirstEntitiesDecode(s, r);
    } else {
      LastEntitiesDecode(s, r);
    }
  }

  /** The first four spellings, each matched by its own pass. */
  lemma FirstEntitiesDecode(s: string, r: string)
    requires
         (s == "&lt;" && r == "<")
      || (s == "&gt;" && r == ">")
      || (s == "&quot;" && r == "\"")
      || (s == "&#x27;" && r == "'")
    ensures DecodeHtmlEntities(Some(s)) == r
  {
    if s == "&lt;" {
      assert StartsWith(s, "&lt;");
      assert s[4..] == "";
    } else if s == "&gt;" {
      Differs(s, "&lt;", 1);
      assert StartsWith(s, "&gt;");
      assert s[4..] == "";
    } else if s == "&quot;" {
      Differs(s, "&lt;", 1);
      Differs(s, "&gt;", 1);
      assert StartsWith(s, "&quot;");
      assert s[6..] == "";
    } else {
      Differs(s, "&lt;", 1);
      Differs(s, "&gt;", 1);
      Differs(s, "&quot;", 1);
      assert StartsWith(s, "&#x27;");
      assert s[6..] == "";
    }
    DecodeSingleAmpersand(s);
  }

  /** The last four spellings, each matched by its own pass. */
  lemma LastEntitiesDecode(s: string, r: string)
    requires
         (s == "&#x2F;" && r == "/")
      || (s == "&#40;" && r == "(")
      || (s == "&#41;" && r == ")")
      || (s == "&amp;" && r == "&")
    ensures DecodeHtmlEntities(Some(s)) == r
  {
    Differs(s, "&lt;", 1);
    Differs(s, "&gt;", 1);
    Differs(s, "&quot;", 1);
    if s == "&#x2F;" {
      Differs(s, "&#x27;", 4);
      assert StartsWith(s, "&#x2F;");
      assert s[6..] == "";
    } else if s == "&#40;" {
      Differs(s, "&#x27;", 2);
      Differs(s, "&#x2F;", 2);
      assert StartsWith(s, "&#40;");
      assert s[5..] == "";
    } else if s == "&#41;" {
      Differs(s, "&#x27;", 2);
      Differs(s, "&#x2F;", 2);
      Differs(s, "&#40;", 3);
      assert StartsWith(s, "&#41;");
      assert s[5..] == "";
    } else {
      Differs(s, "&#x27;", 1);
      Differs(s, "&#x2F;", 1);
      Differs(s, "&#40;", 1);
      Differs(s, "&#41;", 1);
      assert StartsWith(s, "&amp;");
      assert s[5..] == "";
    }
    DecodeSingleAmpersand(s);
  }

  /** Three inputs near an entity: one level of nesting, and two case variants. */
  lemma SampleDecodes(s: string, r: string)
    requires
         (s == "&amp;lt;" && r == "&lt;")
      || (s == "&LT;" && r == "&LT;")
      || (s == "&#x2f;" && r == "&#x2f;")
    ensures DecodeHtmlEntities(Some(s)) == r
  {
    if s == "&amp;lt;" {
      NestedSample(s);
    } else if s == "&LT;" {
      UpperCaseSample(s);
    } else {
      LowerHexSample(s);
    }
  }

  /** `&amp;lt;`: only the `&amp;` pass matches, leaving `&lt;`. */
  lemma NestedSample(s: string)
    requires s == "&amp;lt;"
    ensures DecodeHtmlEntities(Some(s)) == "&lt;"
  {
    assert s == "" + "&amp;" + s[5..] && s[5..] == "lt;";
    AmpersandThenPlain("", s[5..]);
  }

  /**
   `&amp;` between two stretches without `&` decodes to `&` and leaves both
   stretches alone, whatever spelling the second one completes.
   */
  lemma AmpersandThenPlain(a: string, t: string)
    requires '&' !in a && '&' !in t
    ensures DecodeHtmlEntities(Some(a + "&amp;" + t)) == a + "&" + t
  {
    DecodeEntityThenRest(a, "&amp;", "&", t);
    NoAmpersandUnchanged(t);
  }

  /** `&LT;`: no pass matches an upper-case name. */
  lemma UpperCaseSample(s: string)
    requires s == "&LT;"
    ensures DecodeHtmlEntities(Some(s)) == s
  {
    Differs(s, "&lt;", 1);
    Differs(s, "&gt;", 1);
    Differs(s, "&quot;", 1);
    Differs(s, "&#x27;", 1);
    Differs(s, "&#x2F;", 1);
    Differs(s, "&#40;", 1);
    Differs(s, "&#41;", 1);
    Differs(s, "&amp;", 1);
    DecodeSingleAmpersand(s);
  }

  /** `&#x2f;`: no pass matches a lower-case hex digit. */
  lemma LowerHexSample(s: string)
    requires s == "&#x2f;"
    ensures DecodeHtmlEntities(Some(s)) == s
  {
    Differs(s, "&lt;", 1);
    Differs(s, "&gt;", 1);
    Differs(s, "&quot;", 1);
    Differs(s, "&#x27;", 4);
    Differs(s, "&#x2F;", 4);
    Differs(s, "&#40;", 2);
    Differs(s, "&#41;", 2);
    Differs(s, "&amp;", 1);
    DecodeSingleAmpersand(s);
  }

  /** `&amp;` is replaced last, so `&amp;lt;` decodes one level only. */
  lemma AmpersandLastDecodesOneLevel()
    ensures DecodeHtmlEntities(Some("&amp;lt;")) == "&lt;"
  {
    SampleDecodes("&amp;lt;", "&lt;");
  }

  /** Decoding is not idempotent: a second pass decodes the level the first exposed. */
  lemma DecodeNotIdempotent()
    ensures DecodeHtmlEntities(Some("&amp;lt;")) != "<"
    ensures DecodeHtmlEntities(Some(DecodeHtmlEntities(Some("&amp;lt;")))) == "<"
  {
    SampleDecodes("&amp;lt;", "&lt;");
    EntityDecodes("&lt;", "<");
  }

  /** Matching is exact and case-sensitive. */
  lemma CaseSensitive()
    ensures DecodeHtmlEntities(Some("&LT;")) == "&LT;"
    ensures DecodeHtmlEntities(Some("&#x2f;")) == "&#x2f;"
  {
    SampleDecodes("&LT;", "&LT;");
    SampleDecodes("&#x2f;", "&#x2f;");
  }

  /**
   The shape shared by the eight spellings: `&` first, `;` last, and neither
   character anywhere else.
   */
  predicate EntityLike(e: string) {
    && |e| >= 2 && e[0] == '&' && e[|e| - 1] == ';'
    && (forall i :: 0 < i < |e| ==> e[i] != '&')
    && (forall i :: 0 <= i < |e| - 1 ==> e[i] != ';')
  }

  /** A global replace passes over a prefix that cannot start the pattern. */
  lemma {:induction false} ReplaceAllSkipsPrefix(x: string, t: string, pat: string, rep: string)
    requires |pat| > 0 && pat[0] !in x
    ensures ReplaceAll(x + t, pat, rep) == x + ReplaceAll(t, pat, rep)
    decreases |x|
  {
    var s := x + t;
    if |x| == 0 {
      assert s == t;
    } else {
      ReplaceAllSkipsPrefix(x[1..], t, pat, rep);
      assert s[1..] == x[1..] + t;
      assert x == [x[0]] + x[1..];
      if |s| < |pat| {
        assert ReplaceAll(s, pat, rep) == s;
        assert ReplaceAll(t, pat, rep) == t;
      } else {
        assert s[..|pat|][0] == x[0] != pat[0];
        assert ReplaceAll(s, pat, rep) == [s[0]] + ReplaceAll(s[1..], pat, rep);
      }
    }
  }

  /** A global replace rewrites an occurrence at the front and carries on after it. */
  lemma ReplaceAllFront(pat: string, t: string, rep: string)
    requires |pat| > 0
    ensures ReplaceAll(pat + t, pat, rep) == rep + ReplaceAll(t, pat, rep)
  {
    assert (pat + t)[..|pat|] == pat;
    assert (pat + t)[|pat|..] == t;
  }

  /** A different spelling never starts where another one does. */
  lemma EntityNotPrefix(e: string, t: string, pat: string)
    requires EntityLike(e) && EntityLike(pat) && e != pat
    ensures !StartsWith(e + t, pat)
  {
    var n := |pat|;
    if n < |e| {
      assert (e + t)[..n][n - 1] == e[n - 1] != ';';
    } else if n == |e| {
      assert (e + t)[..n] == e;
    } else if n <= |e + t| {
      assert (e + t)[..n][|e| - 1] == ';' != pat[|e| - 1];
    }
  }

  /** A global replace for one spelling keeps a different spelling at the front. */
  lemma ReplaceAllOtherFront(e: string, t: string, pat: string, rep: string)
    requires EntityLike(e) && EntityLike(pat) && e != pat
    ensures ReplaceAll(e + t, pat, rep) == e + ReplaceAll(t, pat, rep)
  {
    if |e + t| < |pat| {
      assert ReplaceAll(e + t, pat, rep) == e + t;
      assert ReplaceAll(t, pat, rep) == t;
    } else {
      EntityTail(e, t);
      calc {
        ReplaceAll(e + t, pat, rep);
        { EntityNotPrefix(e, t, pat); ReplaceAllMiss(e + t, pat, rep); }
        [e[0]] + ReplaceAll(e[1..] + t, pat, rep);
        { ReplaceAllSkipsPrefix(e[1..], t, pat, rep); }
        [e[0]] + (e[1..] + ReplaceAll(t, pat, rep));
        e + ReplaceAll(t, pat, rep);
      }
    }
  }

  /** Where the pattern does not start, a global replace keeps the first character. */
  lemma ReplaceAllMiss(s: string, pat: string, rep: string)
    requires |pat| > 0 && !StartsWith(s, pat) && |s| > 0
    ensures ReplaceAll(s, pat, rep) == [s[0]] + ReplaceAll(s[1..], pat, rep)
  {
    if |s| < |pat| {
      assert ReplaceAll(s[1..], pat, rep) == s[1..];
      assert s == [s[0]] + s[1..];
    }
  }

  /** Past its `&`, a spelling holds no `&`. */
  lemma EntityTail(e: string, t: string)
    requires EntityLike(e)
    ensures '&' !in e[1..]
    ensures e == [e[0]] + e[1..] && (e + t)[0] == e[0] && (e + t)[1..] == e[1..] + t
  {
    assert forall i :: 0 <= i < |e[1..]| ==> e[1..][i] == e[i + 1];
    assert e == [e[0]] + e[1..];
  }

  /**
   One pass of the decoder over `a + front + t`, where `a` holds no `&` and
   `front` is either the spelling `e` or free of `&`: the pass rewrites `front`
   exactly when it is its own spelling, and otherwise acts on `t` alone.
   */
  lemma Pass(a: string, front: string, t: string, pat: string, rep: string, e: string)
    requires '&' !in a && EntityLike(pat) && EntityLike(e)
    requires front == e || '&' !in front
    ensures ReplaceAll(a + front + t, pat, rep) ==
      a + (if front == e && e == pat then rep else front) + ReplaceAll(t, pat, rep)
  {
    assert a + front + t == a + (front + t);
    ReplaceAllSkipsPrefix(a, front + t, pat, rep);
    FrontPass(front, t, pat, rep, e);
  }

  /** The part of `Pass` that acts on `front + t`. */
  lemma FrontPass(front: string, t: string, pat: string, rep: string, e: string)
    requires EntityLike(pat) && EntityLike(e)
    requires front == e || '&' !in front
    ensures ReplaceAll(front + t, pat, rep) ==
      (if front == e && e == pat then rep else front) + ReplaceAll(t, pat, rep)
  {
    if front == e && e == pat {
      ReplaceAllFront(pat, t, rep);
    } else if front == e {
      ReplaceAllOtherFront(e, t, pat, rep);
    } else {
      ReplaceAllSkipsPrefix(front, t, pat, rep);
    }
  }

  /** The eight spellings the decoder recognises have the shared shape. */
  lemma SpellingsEntityLike()
    ensures EntityLike("&lt;") && EntityLike("&gt;") && EntityLike("&quot;") && EntityLike("&#x27;")
    ensures EntityLike("&#x2F;") && EntityLike("&#40;") && EntityLike("&#41;") && EntityLike("&amp;")
  {
  }

  /**
   Every recognised spelling is decoded wherever it stands: after a stretch
   `a` without `&`, the spelling `e` becomes its character `c` and the decoder
   goes on over the rest `t`, whatever `t` holds.
   */
  lemma DecodeEntityThenRest(a: string, e: string, c: string, t: string)
    requires '&' !in a
    requires
         (e == "&lt;" && c == "<")
      || (e == "&gt;" && c == ">")
      || (e == "&quot;" && c == "\"")
      || (e == "&#x27;" && c == "'")
      || (e == "&#x2F;" && c == "/")
      || (e == "&#40;" && c == "(")
      || (e == "&#41;" && c == ")")
      || (e == "&amp;" && c == "&")
    ensures Decode(a + e + t) == a + c + Decode(t)
    ensures DecodeHtmlEntities(Some(a + e + t)) == a + c + DecodeHtmlEntities(Some(t))
  {
    SpellingsEntityLike();
    var t1 := ReplaceAll(t, "&lt;", "<");
    Pass(a, e, t, "&lt;", "<", e);
    var f1 := if e == "&lt;" then "<" else e;
    var t2 := ReplaceAll(t1, "&gt;", ">");
    Pass(a, f1, t1, "&gt;", ">", e);
    var f2 := if e == "&gt;" then ">" else f1;
    var t3 := ReplaceAll(t2, "&quot;", "\"");
    Pass(a, f2, t2, "&quot;", "\"", e);
    var f3 := if e == "&quot;" then "\"" else f2;
    var t4 := ReplaceAll(t3, "&#x27;", "'");
    Pass(a, f3, t3, "&#x27;", "'", e);
    var f4 := if e == "&#x27;" then "'" else f3;
    var t5 := ReplaceAll(t4, "&#x2F;", "/");
    Pass(a, f4, t4, "&#x2F;", "/", e);
    var f5 := if e == "&#x2F;" then "/" else f4;
    var t6 := ReplaceAll(t5, "&#40;", "(");
    Pass(a, f5, t5, "&#40;", "(", e);
    var f6 := if e == "&#40;" then "(" else f5;
    var t7 := ReplaceAll(t6, "&#41;", ")");
    Pass(a, f6, t6, "&#41;", ")", e);
    var f7 := if e == "&#41;" then ")" else f6;
    Pass(a, f7, t7, "&amp;", "&", e);
  }
}

=== FILE: moderation.dfy ===
/**
 The admin dashboard's local bookkeeping: the active and archived confession
 lists and the `{total, unread, today}` counters, as updated by the archive,
 unarchive, mark-as-read and delete handlers once their request has succeeded,
 plus the all/unread/read view filter and the decode applied to fetched items.
 */
module Moderation {
  import opened Wrappers
  import opened Seqs
  import HtmlDecoder

  /** One confession as the dashboard holds it (`_id` is `id`). */
  datatype Confession = Confession(
    id: string,
    content: string,
    isRead: bool,
    ipAddress: string,
    createdAt: int)

  /** The dashboard counters; plain integers, since some handlers decrement unconditionally. */
  datatype Stats = Stats(total: int, unread: int, today: int)

  /** The dashboard's moderation state. */
  datatype Board = Board(active: seq<Confession>, archived: seq<Confession>, stats: Stats)

  predicate IsUnread(c: Confession) { !c.isRead }

  predicate IsRead(c: Confession) { c.isRead }

  /** Some item of `list` carries `id`. */
  predicate HasId(list: seq<Confession>, id: string) {
    exists c :: c in list && c.id == id
  }

  /** No id occurs twice in `list`. */
  predicate Unique(list: seq<Confession>)
    decreases |list|
  {
    |list| == 0 || (!HasId(list[1..], list[0].id) && Unique(list[1..]))
  }

  /** No id occurs in both lists. */
  predicate Disjoint(a: seq<Confession>, b: seq<Confession>) {
    forall x, y :: x in a && y in b ==> x.id != y.id
  }

  /** Ids are unique across the two lists taken together. */
  predicate WellFormed(b: Board) {
    Unique(b.active) && Unique(b.archived) && Disjoint(b.active, b.archived)
  }

  function UnreadCount(list: seq<Confession>): nat {
    |Filter(list, IsUnread)|
  }

  /** The counters describe the active list: `total` items, `unread` of them unread. */
  predicate Consistent(b: Board) {
    b.stats.total == |b.active| && b.stats.unread == UnreadCount(b.active)
  }

  /** `list.find(conf => conf._id === id)`: the first item carrying `id`, if any. */
  function Find(list: seq<Confession>, id: string): (r: Option<Confession>)
    ensures r.Some? <==> HasId(list, id)
    ensures r.Some? ==> r.value in list && r.value.id == id
    ensures r.Some? ==>
      exists i :: 0 <= i < |list| && list[i] == r.value && forall j :: 0 <= j < i ==> list[j].id != id
    decreases |list|
  {
    if |list| == 0 then None
    else if list[0].id == id then Some(list[0])
    else
      var r := Find(list[1..], id);
      if r.Some? then
        var i :| 0 <= i < |list[1..]| && list[1..][i] == r.value && forall j :: 0 <= j < i ==> list[1..][j].id != id;
        assert list[i + 1] == r.value && forall j :: 0 <= j < i + 1 ==> list[j].id != id;
        r
      else r
  }

  /** The test `conf => conf._id !== id`. */
  function Keeps(id: string): Confession -> bool {
    (c: Confession) => c.id != id
  }

  /** The complement of `Keeps(id)`: `conf => conf._id === id`. */
  function Carries(id: string): Confession -> bool {
    (c: Confession) => c.id == id
  }

  /**
   `list.filter(conf => conf._id !== id)`: the items not carrying `id`, all of
   them, in their original order; exactly the items carrying `id` are dropped.
   */
  function RemoveId(list: seq<Confession>, id: string): (r: seq<Confession>)
    ensures forall x :: x in r <==> x in list && x.id != id
    ensures Subsequence(r, list)
    ensures |r| + |Filter(list, Carries(id))| == |list|
    ensures !HasId(r, id)
    ensures !HasId(list, id) ==> r == list
  {
    FilterIsSubsequence(list, Keeps(id));
    FilterPartition(list, Keeps(id), Carries(id));
    Filter(list, Keeps(id))
  }

  /** `conf._id === id ? { ...conf, isRead: true } : conf`, over the whole list. */
  function MarkRead(list: seq<Confession>, id: string): (r: seq<Confession>)
    ensures |r| == |list|
    ensures forall i :: 0 <= i < |list| ==>
      r[i] == list[i].(isRead := list[i].isRead || list[i].id == id)
    decreases |list|
  {
    if |list| == 0 then []
    else [if list[0].id == id then list[0].(isRead := true) else list[0]] + MarkRead(list[1..], id)
  }

  /**
   `handleArchive(id)`: move the item carrying `id` from the active list to the
   end of the archived list, decrement `total`, and decrement `unread` when the
   item was unread. An id absent from the active list changes nothing.
   */
  function Archive(b: Board, id: string): (r: Board)
    ensures !HasId(b.active, id) ==> r == b
    ensures HasId(b.active, id) ==>
      var c := Find(b.active, id).value;
      && (forall x :: x in r.active <==> x in b.active && x.id != id)
      && Subsequence(r.active, b.active)
      && |r.active| + |Filter(b.active, Carries(id))| == |b.active|
      && r.archived == b.archived + [c]
      && r.stats.total == b.stats.total - 1
      && r.stats.unread == (if c.isRead then b.stats.unread else b.stats.unread - 1)
      && r.stats.today == b.stats.today
  {
    match Find(b.active, id)
    case None => b
    case Some(c) =>
      FilterIsSubsequence(b.active, Keeps(id));
      Board(RemoveId(b.active, id), b.archived + [c],
            b.stats.(total := b.stats.total - 1,
                     unread := if c.isRead then b.stats.unread else b.stats.unread - 1))
  }

  /**
   `handleUnarchive(id)`: move the item carrying `id` from the archived list to
   the end of the active list, increment `total`, and increment `unread` when
   the item was unread. An id absent from the archived list changes nothing.
   */
  function Unarchive(b: Board, id: string): (r: Board)
    ensures !HasId(b.archived, id) ==> r == b
    ensures HasId(b.archived, id) ==>
      var c := Find(b.archived, id).value;
      && r.active == b.active + [c]
      && (forall x :: x in r.archived <==> x in b.archived && x.id != id)
      && Subsequence(r.archived, b.archived)
      && |r.archived| + |Filter(b.archived, Carries(id))| == |b.archived|
      && r.stats.total == b.stats.total + 1
      && r.stats.unread == (if c.isRead then b.stats.unread else b.stats.unread + 1)
      && r.stats.today == b.stats.today
  {
    match Find(b.archived, id)
    case None => b
    case Some(c) =>
      FilterIsSubsequence(b.archived, Keeps(id));
      Board(b.active + [c], RemoveId(b.archived, id),
            b.stats.(total := b.stats.total + 1,
                     unread := if c.isRead then b.stats.unread else b.stats.unread + 1))
  }

  /**
   `markAsRead(id)` after an ok response: every active item carrying `id` is
   marked read, nothing else changes in the lists, and `unread` drops by one
   whether or not such an unread item existed.
   */
  function MarkAsRead(b: Board, id: string): (r: Board)
    ensures |r.active| == |b.active|
    ensures forall i :: 0 <= i < |b.active| ==>
      && r.active[i].id == b.active[i].id
      && r.active[i].content == b.active[i].content
      && r.active[i].ipAddress == b.active[i].ipAddress
      && r.active[i].createdAt == b.active[i].createdAt
      && (r.active[i].isRead <==> b.active[i].isRead || b.active[i].id == id)
    ensures r.archived == b.archived
    ensures r.stats == b.stats.(unread := b.stats.unread - 1)
  {
    Board(MarkRead(b.active, id), b.archived, b.stats.(unread := b.stats.unread - 1))
  }

  /**
   `deleteConfession(id, isArchived)` after an ok response. From the archive:
   only the archived list loses `id`. Otherwise the active list loses `id` and
   `total` drops by one even if no item carried it; `unread` never changes.
   */
  function Delete(b: Board, id: string, isArchived: bool): (r: Board)
    ensures isArchived ==>
      && r.active == b.active
      && r.stats == b.stats
      && (forall x :: x in r.archived <==> x in b.archived && x.id != id)
      && Subsequence(r.archived, b.archived)
      && |r.archived| + |Filter(b.archived, Carries(id))| == |b.archived|
    ensures !isArchived ==>
      && r.archived == b.archived
      && (forall x :: x in r.active <==> x in b.active && x.id != id)
      && Subsequence(r.active, b.active)
      && |r.active| + |Filter(b.active, Carries(id))| == |b.active|
      && r.stats == b.stats.(total := b.stats.total - 1)
  {
    if isArchived then b.(archived := RemoveId(b.archived, id))
    else Board(RemoveId(b.active, id), b.archived, b.stats.(total := b.stats.total - 1))
  }

  /**
   `filteredConfessions`: the `unread` mode keeps exactly the unread items, the
   `read` mode exactly the read ones, in their original order; any other mode
   string shows the whole list.
   */
  function StatusFilter(list: seq<Confession>, mode: string): (r: seq<Confession>)
    ensures mode == "unread" ==> forall x :: x in r <==> x in list && !x.isRead
    ensures mode == "read" ==> forall x :: x in r <==> x in list && x.isRead
    ensures mode != "unread" && mode != "read" ==> r == list
    ensures Subsequence(r, list)
  {
    FilterIsSubsequence(list, IsUnread);
    FilterIsSubsequence(list, IsRead);
    if mode == "unread" then Filter(list, IsUnread)
    else if mode == "read" then Filter(list, IsRead)
    else (SubsequenceRefl(list); list)
  }

  /**
   The ok branch of `fetchConfessions`: the active list is replaced by the
   server's list, decoded; the archive and the counters are not touched (the
   server knows nothing of archiving, which is kept on the client only).
   */
  function Fetched(b: Board, data: seq<Confession>): (r: Board)
    ensures r.archived == b.archived && r.stats == b.stats
    ensures |r.active| == |data|
    ensures forall i :: 0 <= i < |data| ==>
      r.active[i] == data[i].(content := HtmlDecoder.DecodeHtmlEntities(Some(data[i].content)))
  {
    b.(active := DecodeAll(data))
  }

  /**
   The fetch handler's decode map: each item keeps every field except
   `content`, which is entity-decoded (never longer, and unchanged exactly
   when it holds no entity).
   */
  function DecodeAll(list: seq<Confession>): (r: seq<Confession>)
    ensures |r| == |list|
    ensures forall i :: 0 <= i < |list| ==>
      && r[i] == list[i].(content := HtmlDecoder.DecodeHtmlEntities(Some(list[i].content)))
      && |r[i].content| <= |list[i].content|
      && (r[i].content == list[i].content <==> !HtmlDecoder.ContainsEntity(list[i].content))
    decreases |list|
  {
    if |list| == 0 then []
    else [list[0].(content := HtmlDecoder.DecodeHtmlEntities(Some(list[0].content)))] + DecodeAll(list[1..])
  }
}

=== FILE: moderation_properties.dfy ===
/**
 Properties of the dashboard transitions: which of them keep ids unique across
 the two lists, which keep the counters in step with the active list, and the
 archive/unarchive round trip.
 */
module ModerationProperties {
  import opened Wrappers
  import opened Seqs
  import opened Moderation

  /** Two lists carrying the same ids in the same positions. */
  predicate SameIds(a: seq<Confession>, b: seq<Confession>) {
    |a| == |b| && forall i :: 0 <= i < |a| ==> a[i].id == b[i].id
  }

  lemma SameIdsHasId(a: seq<Confession>, b: seq<Confession>, k: string)
    requires SameIds(a, b)
    ensures HasId(a, k) <==> HasId(b, k)
  {
    if HasId(a, k) {
      var c :| c in a && c.id == k;
      var i :| 0 <= i < |a| && a[i] == c;
      assert b[i] in b;
    }
    if HasId(b, k) {
      var c :| c in b && c.id == k;
      var i :| 0 <= i < |b| && b[i] == c;
      assert a[i] in a;
    }
  }

  /** Uniqueness of ids depends on the ids alone. */
  lemma {:induction false} SameIdsUnique(a: seq<Confession>, b: seq<Confession>)
    requires SameIds(a, b)
    ensures Unique(a) <==> Unique(b)
    decreases |a|
  {
    if |a| > 0 {
      SameIdsUnique(a[1..], b[1..]);
      SameIdsHasId(a[1..], b[1..], a[0].id);
    }
  }

  /** With unique ids, the item found for an id is the one item carrying it. */
  lemma {:induction false} FindUnique(list: seq<Confession>, c: Confession)
    requires Unique(list) && c in list
    ensures Find(list, c.id) == Some(c)
    decreases |list|
  {
    if list[0] != c {
      assert c in list[1..];
      FindUnique(list[1..], c);
    }
  }

  /** Removing an id keeps the remaining ids unique. */
  lemma {:induction false} RemoveIdUnique(list: seq<Confession>, id: string)
    requires Unique(list)
    ensures Unique(RemoveId(list, id))
    decreases |list|
  {
    if |list| > 0 {
      RemoveIdUnique(list[1..], id);
      if list[0].id != id {
        assert RemoveId(list, id) == [list[0]] + RemoveId(list[1..], id);
        assert RemoveId(list, id)[1..] == RemoveId(list[1..], id);
      }
    }
  }

  /** Appending an item with a fresh id keeps ids unique. */
  lemma {:induction false} UniqueAppend(list: seq<Confession>, c: Confession)
    requires Unique(list) && !HasId(list, c.id)
    ensures Unique(list + [c])
    decreases |list|
  {
    if |list| == 0 {
      assert [] + [c] == [c];
    } else {
      assert (list + [c])[1..] == list[1..] + [c];
      UniqueAppend(list[1..], c);
    }
  }

  /**
   Removing the one item carrying `id` from a list with unique ids: the list
   shrinks by one, loses exactly that item, and every filter over it loses the
   item iff the filter kept it.
   */
  lemma {:induction false} RemoveFound(list: seq<Confession>, id: string, p: Confession -> bool)
    requires Unique(list) && HasId(list, id)
    ensures |RemoveId(list, id)| + 1 == |list|
    ensures multiset(RemoveId(list, id)) + multiset{Find(list, id).value} == multiset(list)
    ensures |Filter(RemoveId(list, id), p)| + (if p(Find(list, id).value) then 1 else 0)
         == |Filter(list, p)|
    decreases |list|
  {
    assert list == [list[0]] + list[1..];
    FilterAppend([list[0]], list[1..], Keeps(id));
    if list[0].id == id {
      assert !HasId(list[1..], id);
      assert Filter([list[0]], Keeps(id)) == [];
      assert RemoveId(list, id) == list[1..];
    } else {
      var c :| c in list && c.id == id;
      assert c in list[1..];
      RemoveFound(list[1..], id, p);
      assert Filter([list[0]], Keeps(id)) == [list[0]];
      assert RemoveId(list, id) == [list[0]] + RemoveId(list[1..], id);
      FilterAppend([list[0]], RemoveId(list[1..], id), p);
      FilterAppend([list[0]], list[1..], p);
    }
  }

  /** Removing the id of an item just appended, which no earlier item carried, undoes the append. */
  lemma RemoveAppended(list: seq<Confession>, c: Confession)
    requires !HasId(list, c.id)
    ensures RemoveId(list + [c], c.id) == list
  {
    FilterAppend(list, [c], Keeps(c.id));
    assert RemoveId([c], c.id) == [];
  }

  /** Archiving keeps ids unique across the two lists. */
  lemma ArchivePreservesWellFormed(b: Board, id: string)
    requires WellFormed(b)
    ensures WellFormed(Archive(b, id))
  {
    if HasId(b.active, id) {
      var c := Find(b.active, id).value;
      RemoveIdUnique(b.active, id);
      UniqueAppend(b.archived, c);
    }
  }

  /** Unarchiving keeps ids unique across the two lists. */
  lemma UnarchivePreservesWellFormed(b: Board, id: string)
    requires WellFormed(b)
    ensures WellFormed(Unarchive(b, id))
  {
    if HasId(b.archived, id) {
      var c := Find(b.archived, id).value;
      RemoveIdUnique(b.archived, id);
      UniqueAppend(b.active, c);
    }
  }

  /** Marking as read changes no id, so uniqueness across the lists survives it. */
  lemma MarkAsReadPreservesWellFormed(b: Board, id: string)
    requires WellFormed(b)
    ensures WellFormed(MarkAsRead(b, id))
  {
    var r := MarkAsRead(b, id);
    assert SameIds(r.active, b.active);
    SameIdsUnique(r.active, b.active);
    forall x, y | x in r.active && y in r.archived
      ensures x.id != y.id
    {
      SameIdsHasId(r.active, b.active, x.id);
    }
  }

  /** Deleting keeps ids unique across the two lists. */
  lemma DeletePreservesWellFormed(b: Board, id: string, isArchived: bool)
    requires WellFormed(b)
    ensures WellFormed(Delete(b, id, isArchived))
  {
    RemoveIdUnique(b.active, id);
    RemoveIdUnique(b.archived, id);
  }

  /**
   Archiving an active item and then unarchiving it restores the counters, the
   archived list, and the active items; the item returns at the end of the
   active list, so only the order may differ.
   */
  lemma ArchiveUnarchiveRoundTrip(b: Board, id: string)
    requires WellFormed(b) && HasId(b.active, id)
    ensures Unarchive(Archive(b, id), id).stats == b.stats
    ensures Unarchive(Archive(b, id), id).archived == b.archived
    ensures multiset(Unarchive(Archive(b, id), id).active) == multiset(b.active)
  {
    var c := Find(b.active, id).value;
    var a := Archive(b, id);
    assert a.archived == b.archived + [c];
    assert !HasId(b.archived, id);
    UniqueAppend(b.archived, c);
    FindUnique(a.archived, c);
    assert Find(a.archived, id) == Some(c);
    RemoveAppended(b.archived, c);
    RemoveFound(b.active, id, IsUnread);
    var u := Unarchive(a, id);
    assert u.active == a.active + [c];
    assert u.archived == b.archived;
  }

  /** Archiving keeps the counters in step with the active list. */
  lemma ArchivePreservesConsistent(b: Board, id: string)
    requires WellFormed(b) && Consistent(b)
    ensures Consistent(Archive(b, id))
  {
    if HasId(b.active, id) {
      RemoveFound(b.active, id, IsUnread);
    }
  }

  /** Unarchiving keeps the counters in step with the active list. */
  lemma UnarchivePreservesConsistent(b: Board, id: string)
    requires Consistent(b)
    ensures Consistent(Unarchive(b, id))
  {
    if HasId(b.archived, id) {
      var c := Find(b.archived, id).value;
      FilterAppend(b.active, [c], IsUnread);
    }
  }

  /** Marking `id` read removes one unread item when an unread item carries `id`, else none. */
  lemma {:induction false} MarkReadUnreadCount(list: seq<Confession>, id: string)
    requires Unique(list)
    ensures UnreadCount(MarkRead(list, id)) + (if HasId(list, id) && !Find(list, id).value.isRead then 1 else 0)
         == UnreadCount(list)
    decreases |list|
  {
    if |list| > 0 {
      var m := MarkRead(list, id);
      assert list == [list[0]] + list[1..];
      assert m == [m[0]] + MarkRead(list[1..], id);
      FilterAppend([m[0]], MarkRead(list[1..], id), IsUnread);
      FilterAppend([list[0]], list[1..], IsUnread);
      MarkReadUnreadCount(list[1..], id);
      if list[0].id == id {
        assert !HasId(list[1..], id);
        assert SameIds(MarkRead(list[1..], id), list[1..]);
        assert MarkRead(list[1..], id) == list[1..];
      }
    }
  }

  /**
   Marking as read keeps the counters consistent exactly when an unread active
   item carries `id`; for an item already read, or an absent id, `unread`
   drops below the true count.
   */
  lemma MarkAsReadConsistency(b: Board, id: string)
    requires WellFormed(b) && Consistent(b)
    ensures Consistent(MarkAsRead(b, id)) <==> HasId(b.active, id) && !Find(b.active, id).value.isRead
  {
    MarkReadUnreadCount(b.active, id);
  }

  /**
   Marking the same id read twice changes the list once but decrements
   `unread` twice.
   */
  lemma MarkAsReadTwice(b: Board, id: string)
    ensures MarkAsRead(MarkAsRead(b, id), id).active == MarkAsRead(b, id).active
    ensures MarkAsRead(MarkAsRead(b, id), id).stats.unread == b.stats.unread - 2
  {
    var once := MarkAsRead(b, id).active;
    var twice := MarkAsRead(MarkAsRead(b, id), id).active;
    assert forall i :: 0 <= i < |twice| ==> twice[i] == once[i];
  }

  /**
   Deleting from the active list keeps the counters consistent exactly when
   the id was present and its item already read: an absent id still
   decrements `total`, and an unread item leaves `unread` too high.
   */
  lemma DeleteConsistency(b: Board, id: string)
    requires WellFormed(b) && Consistent(b)
    ensures Consistent(Delete(b, id, false)) <==> HasId(b.active, id) && Find(b.active, id).value.isRead
    ensures Consistent(Delete(b, id, true))
  {
    if HasId(b.active, id) {
      RemoveFound(b.active, id, IsUnread);
    }
  }

  /**
   The unread and read views split the list: their sizes add up to its length
   and together they hold exactly its items.
   */
  lemma StatusFilterPartition(list: seq<Confession>)
    ensures |StatusFilter(list, "unread")| + |StatusFilter(list, "read")| == |list|
    ensures multiset(StatusFilter(list, "unread")) + multiset(StatusFilter(list, "read")) == multiset(list)
  {
    FilterPartition(list, IsUnread, IsRead);
  }

  /** Lists with the same ids in the same positions are disjoint from the same lists. */
  lemma SameIdsDisjoint(a: seq<Confession>, b: seq<Confession>, other: seq<Confession>)
    requires SameIds(a, b)
    ensures Disjoint(a, other) <==> Disjoint(b, other)
  {
    if !Disjoint(a, other) {
      var x, y :| x in a && y in other && x.id == y.id;
      SameIdsHasId(a, b, x.id);
    }
    if !Disjoint(b, other) {
      var x, y :| x in b && y in other && x.id == y.id;
      SameIdsHasId(a, b, x.id);
    }
  }

  /**
   After a fetch, ids are unique across the two lists exactly when the
   server's ids are unique, the archive's are, and no fetched id is archived.
   */
  lemma FetchWellFormed(b: Board, data: seq<Confession>)
    ensures WellFormed(Fetched(b, data)) <==>
      Unique(data) && Unique(b.archived) && Disjoint(data, b.archived)
  {
    var d := Fetched(b, data).active;
    assert SameIds(d, data);
    SameIdsUnique(d, data);
    SameIdsDisjoint(d, data, b.archived);
  }

  /**
   After a fetch, the counters describe the active list exactly when they
   happen to describe the server's list: the fetch does not update them.
   */
  lemma FetchConsistent(b: Board, data: seq<Confession>)
    ensures Consistent(Fetched(b, data)) <==>
      b.stats.total == |data| && b.stats.unread == UnreadCount(data)
  {
    DecodeAllUnread(data);
  }

  /**
   Archiving is kept on the client only, so fetching the unchanged server list
   afterwards puts the archived item back into the active list while it is
   still in the archive.
   */
  lemma ArchiveThenRefetch(c: Confession)
    ensures WellFormed(Board([c], [], Stats(1, 0, 0)))
    ensures !WellFormed(Fetched(Archive(Board([c], [], Stats(1, 0, 0)), c.id), [c]))
  {
    var b := Board([c], [], Stats(1, 0, 0));
    assert Find(b.active, c.id) == Some(c);
    var a := Archive(b, c.id);
    assert a.archived == [c];
    FetchWellFormed(a, [c]);
    assert !Disjoint([c], [c]);
  }

  lemma {:induction false} DecodeAllUnread(list: seq<Confession>)
    ensures UnreadCount(DecodeAll(list)) == UnreadCount(list)
    decreases |list|
  {
    if |list| > 0 {
      var d := DecodeAll(list);
      assert list == [list[0]] + list[1..];
      assert d == [d[0]] + DecodeAll(list[1..]);
      FilterAppend([d[0]], DecodeAll(list[1..]), IsUnread);
      FilterAppend([list[0]], list[1..], IsUnread);
      DecodeAllUnread(list[1..]);
    }
  }
}

=== FILE: seqs.dfy ===
/** `Array.prototype.filter` over sequences, and the facts about it the dashboard relies on. */
module Seqs {

  /** `a` is `b` with some elements left out, the rest in their original order. */
  predicate Subsequence<T(==)>(a: seq<T>, b: seq<T>)
    decreases |b|
  {
    if |a| == 0 then true
    else if |b| == 0 then false
    else (a[0] == b[0] && Subsequence(a[1..], b[1..])) || Subsequence(a, b[1..])
  }

  /** Every sequence is a subsequence of itself. */
  lemma {:induction false} SubsequenceRefl<T>(s: seq<T>)
    ensures Subsequence(s, s)
    decreases |s|
  {
    if |s| > 0 {
      SubsequenceRefl(s[1..]);
    }
  }

  /** The elements of `s` satisfying `p`, in order. */
  function Filter<T(!new)>(s: seq<T>, p: T -> bool): (r: seq<T>)
    ensures |r| <= |s|
    ensures forall x :: x in r <==> x in s && p(x)
    ensures forall i :: 0 <= i < |r| ==> p(r[i])
    ensures (forall i :: 0 <= i < |s| ==> p(s[i])) ==> r == s
    decreases |s|
  {
    if |s| == 0 then []
    else if p(s[0]) then [s[0]] + Filter(s[1..], p)
    else Filter(s[1..], p)
  }

  /** Filtering keeps the relative order of the elements it keeps. */
  lemma {:induction false} FilterIsSubsequence<T(!new)>(s: seq<T>, p: T -> bool)
    ensures Subsequence(Filter(s, p), s)
    decreases |s|
  {
    if |s| > 0 {
      FilterIsSubsequence(s[1..], p);
      if p(s[0]) {
        assert Filter(s, p)[1..] == Filter(s[1..], p);
      }
    }
  }

  /** Filtering a concatenation filters each part. */
  lemma {:induction false} FilterAppend<T(!new)>(a: seq<T>, b: seq<T>, p: T -> bool)
    ensures Filter(a + b, p) == Filter(a, p) + Filter(b, p)
    decreases |a|
  {
    if |a| > 0 {
      assert (a + b)[1..] == a[1..] + b;
      FilterAppend(a[1..], b, p);
    } else {
      assert a + b == b;
    }
  }

  /**
   Two complementary filters split a sequence: their lengths add up to its
   length and their elements, with multiplicity, make it up exactly.
   */
  lemma {:induction false} FilterPartition<T(!new)>(s: seq<T>, p: T -> bool, q: T -> bool)
    requires forall x :: q(x) == !p(x)
    ensures |Filter(s, p)| + |Filter(s, q)| == |s|
    ensures multiset(Filter(s, p)) + multiset(Filter(s, q)) == multiset(s)
    decreases |s|
  {
    if |s| > 0 {
      FilterPartition(s[1..], p, q);
      assert s == [s[0]] + s[1..];
    }
  }
}

=== FILE: strings.dfy ===
/**
 Substring tests on `string` (a `seq<char>`), in the sense of JavaScript's
 `String.prototype.startsWith` and `String.prototype.includes`.
 */
module Strings {

  /** `pat` occurs in `s` at position 0. */
  predicate StartsWith(s: string, pat: string) {
    |pat| <= |s| && s[..|pat|] == pat
  }

  /** `pat` occurs somewhere in `s`. */
  predicate Contains(s: string, pat: string)
    decreases |s|
  {
    |pat| <= |s| && (StartsWith(s, pat) || (|s| > 0 && Contains(s[1..], pat)))
  }

  /** A non-empty pattern can only occur where its first character does. */
  lemma {:induction false} ContainsFirstChar(s: string, pat: string)
    requires |pat| > 0 && Contains(s, pat)
    ensures pat[0] in s
    decreases |s|
  {
    if StartsWith(s, pat) {
      assert s[0] == pat[0];
    } else {
      ContainsFirstChar(s[1..], pat);
    }
  }

  /** Every character of an occurring pattern occurs in the text. */
  lemma {:induction false} ContainsChar(s: string, pat: string, c: char)
    requires Contains(s, pat) && c in pat
    ensures c in s
    decreases |s|
  {
    if StartsWith(s, pat) {
      var i :| 0 <= i < |pat| && pat[i] == c;
      assert s[..|pat|][i] == c;
    } else {
      ContainsChar(s[1..], pat, c);
    }
  }

  /** A pattern occurs in any text built around it. */
  lemma {:induction false} ContainsInfix(a: string, pat: string, b: string)
    ensures Contains(a + pat + b, pat)
    decreases |a|
  {
    if |a| == 0 {
      assert a + pat + b == pat + b;
      assert (pat + b)[..|pat|] == pat;
    } else {
      ContainsInfix(a[1..], pat, b);
      assert (a + pat + b)[1..] == a[1..] + pat + b;
    }
  }

  /** `pat` occurs in `s` exactly when `s` has a position where `pat` starts. */
  lemma {:induction false} ContainsAtSomePosition(s: string, pat: string)
    ensures Contains(s, pat) <==> exists i :: 0 <= i <= |s| && StartsWith(s[i..], pat)
    decreases |s|
  {
    if Contains(s, pat) {
      if StartsWith(s, pat) {
        assert s[0..] == s;
      } else {
        ContainsAtSomePosition(s[1..], pat);
        var i :| 0 <= i <= |s[1..]| && StartsWith(s[1..][i..], pat);
        assert s[1..][i..] == s[i + 1..];
      }
    }
    if exists i :: 0 <= i <= |s| && StartsWith(s[i..], pat) {
      var i :| 0 <= i <= |s| && StartsWith(s[i..], pat);
      if i == 0 {
        assert s[0..] == s;
      } else {
        assert s[1..][i - 1..] == s[i..];
        ContainsAtSomePosition(s[1..], pat);
      }
    }
  }
}

=== FILE: submit_form.dfy ===
/**
 The public submission form: a blank-text pre-check, then one request whose
 outcome decides the text and the message shown.
 */
module SubmitForm {
  import opened Wrappers
  import opened Strings

  datatype Form = Form(text: string, message: string, isSubmitting: bool)

  /**
   How the request ended: an answer (`response.ok` and the body's `error`
   field), or an exception. An exception covers a failed request, a body that
   is not JSON, and a refusal whose body is JSON `null`, for which reading
   `data.error` throws.
   */
  datatype Reply = Answered(ok: bool, error: Option<string>) | Threw

  /** The form afterwards and the `content` sent, if a request was made. */
  datatype Outcome = Outcome(form: Form, sent: Option<string>)

  const SuccessMessage := "Your confession has been submitted anonymously!"
  const EmptyMessage := "Please enter your confession"
  const FallbackError := "Something went wrong"
  const NetworkMessage := "Network error. Please try again."

  /** The characters `String.prototype.trim` removes: ECMAScript white space and line terminators. */
  predicate IsJsWhitespace(c: char) {
    || c in {' ', '\t', '\n', '\r', '\U{000B}', '\U{000C}', '\U{00A0}', '\U{1680}'}
    || ('\U{2000}' <= c <= '\U{200A}')
    || c in {'\U{2028}', '\U{2029}', '\U{202F}', '\U{205F}', '\U{3000}', '\U{FEFF}'}
  }

  /** Every character of `text` is white space, so `!text.trim()` holds. */
  predicate IsBlank(text: string) {
    forall i :: 0 <= i < |text| ==> IsJsWhitespace(text[i])
  }

  /** `s` without its leading white space: a suffix of `s`, empty or starting with a non-space. */
  function TrimStart(s: string): (r: string)
    ensures |r| <= |s| && r == s[|s| - |r|..]
    ensures IsBlank(s[..|s| - |r|])
    ensures r == "" <==> IsBlank(s)
    ensures r != "" ==> !IsJsWhitespace(r[0])
    decreases |s|
  {
    if |s| > 0 && IsJsWhitespace(s[0]) then TrimStart(s[1..]) else s
  }

  /** `s` without its trailing white space: a prefix of `s`, empty or ending in a non-space. */
  function TrimEnd(s: string): (r: string)
    ensures |r| <= |s| && r == s[..|r|]
    ensures IsBlank(s[|r|..])
    ensures r == "" <==> IsBlank(s)
    ensures r != "" ==> !IsJsWhitespace(r[|r| - 1])
    decreases |s|
  {
    if |s| > 0 && IsJsWhitespace(s[|s| - 1]) then TrimEnd(s[..|s| - 1]) else s
  }

  /**
   `String.prototype.trim`: the text with a blank prefix and a blank suffix
   removed, leaving nothing or a part that starts and ends with a non-space;
   so it is empty exactly when the text is blank.
   */
  function Trim(s: string): (r: string)
    ensures exists i, j :: 0 <= i <= j <= |s| && r == s[i..j] && IsBlank(s[..i]) && IsBlank(s[j..])
    ensures r == "" <==> IsBlank(s)
    ensures r != "" ==> !IsJsWhitespace(r[0]) && !IsJsWhitespace(r[|r| - 1])
  {
    var t := TrimStart(s);
    assert t != "" ==> !IsBlank(t);
    var r := TrimEnd(t);
    assert r != "" ==> r[0] == t[0];
    var i, j := |s| - |t|, |s| - |t| + |r|;
    assert r == s[i..j] && s[j..] == t[|r|..];
    r
  }

  /** `message.includes('submitted')`: the message is styled as a success. */
  predicate IsSuccessMessage(m: string) {
    Contains(m, "submitted")
  }

  /**
   `handleSubmit`. Blank text sends nothing, keeps the text and asks for a
   confession. Otherwise the untrimmed text is sent; an ok answer clears the
   text and reports success, a refusal keeps the text and shows the server's
   error (or a fallback), an exception keeps the text and reports a network
   error; `isSubmitting` ends false.
   */
  function Submit(f: Form, reply: Reply): (r: Outcome)
    ensures IsBlank(f.text) ==> r == Outcome(f.(message := EmptyMessage), None)
    ensures !IsBlank(f.text) ==> r.sent == Some(f.text) && !r.form.isSubmitting
    ensures !IsBlank(f.text) && reply.Answered? && reply.ok ==>
      r.form.text == "" && r.form.message == SuccessMessage
    ensures !IsBlank(f.text) && reply.Answered? && !reply.ok ==>
      && r.form.text == f.text
      && r.form.message == (if Truthy(reply.error) then reply.error.value else FallbackError)
    ensures !IsBlank(f.text) && reply.Threw? ==>
      r.form.text == f.text && r.form.message == NetworkMessage
  {
    if Trim(f.text) == "" then Outcome(f.(message := EmptyMessage), None)
    else
      var form :=
        match reply
        case Answered(ok, error) =>
          if ok then Form("", SuccessMessage, false)
          else Form(f.text, if Truthy(error) then error.value else FallbackError, false)
        case Threw => Form(f.text, NetworkMessage, false);
      Outcome(form, Some(f.text))
  }

  /** A failed attempt keeps the text, so submitting again sends the same content. */
  lemma RetrySendsSameContent(f: Form, first: Reply, second: Reply)
    requires !IsBlank(f.text) && !(first.Answered? && first.ok)
    ensures Submit(Submit(f, first).form, second).sent == Some(f.text)
  {
  }

  /** A successful attempt clears the text, so submitting again sends nothing. */
  lemma SuccessClearsText(f: Form, first: Reply, second: Reply)
    requires !IsBlank(f.text) && first.Answered? && first.ok
    ensures Submit(Submit(f, first).form, second).sent == None
    ensures Submit(Submit(f, first).form, second).form.message == EmptyMessage
  {
  }

  /** Text without the letter `b` cannot contain "submitted", so it is not styled as a success. */
  lemma WithoutLetterBNotSuccess(m: string)
    requires 'b' !in m
    ensures !IsSuccessMessage(m)
  {
    if IsSuccessMessage(m) {
      ContainsChar(m, "submitted", 'b');
    }
  }

  /** A message is styled as a success exactly when "submitted" starts at one of its positions. */
  lemma SuccessIffSubmittedSomewhere(m: string)
    ensures IsSuccessMessage(m) <==> exists i :: 0 <= i <= |m| && StartsWith(m[i..], "submitted")
  {
    ContainsAtSomePosition(m, "submitted");
  }

  /** Text built around "submitted" is styled as a success. */
  lemma AroundSubmittedIsSuccess(m: string, a: string, b: string)
    requires m == a + "submitted" + b
    ensures IsSuccessMessage(m)
  {
    ContainsInfix(a, "submitted", b);
  }

  /** Of the four fixed messages, only the success message is styled as a success. */
  lemma FixedMessageStyles(m: string)
    requires m == SuccessMessage || m == EmptyMessage || m == FallbackError || m == NetworkMessage
    ensures IsSuccessMessage(m) <==> m == SuccessMessage
  {
    if m == SuccessMessage {
      AroundSubmittedIsSuccess(m, "Your confession has been ", " anonymously!");
    } else {
      WithoutLetterBNotSuccess(m);
    }
  }

  /**
   After a request, the message is styled as a success exactly when the
   answer was ok, provided the server's error text does not itself mention
   "submitted".
   */
  lemma SuccessStyleIffOk(f: Form, reply: Reply)
    requires !IsBlank(f.text)
    requires reply.Answered? && reply.error.Some? ==> !IsSuccessMessage(reply.error.value)
    ensures IsSuccessMessage(Submit(f, reply).form.message) <==> reply.Answered? && reply.ok
  {
    var m := Submit(f, reply).form.message;
    if m == SuccessMessage || m == EmptyMessage || m == FallbackError || m == NetworkMessage {
      FixedMessageStyles(m);
    }
  }

  /** A refusal whose error text mentions "submitted" is nevertheless styled as a success. */
  lemma RefusalStyledAsSuccess(f: Form)
    requires !IsBlank(f.text)
    ensures IsSuccessMessage(Submit(f, Answered(false, Some("Already submitted"))).form.message)
  {
    AroundSubmittedIsSuccess("Already submitted", "Already ", "");
  }
}

=== FILE: wrappers.dfy ===
/** The optional-value datatype used for JavaScript's `undefined`/`null` and for absent lookups. */
module Wrappers {

  datatype Option<+T> = None | Some(value: T)

  /** JavaScript truthiness of a value that is a string or absent: present and non-empty. */
  predicate Truthy(s: Option<string>) {
    s.Some? && s.value != ""
  }
}
